=== FILE: README.md ===
# Wall of Shame backend — a Dafny model of its request handlers

This project models the server of an accountability-challenge app. Users
create time-boxed challenges and invite each other. Participants submit
proof that they completed a challenge. Once a challenge has ended,
participants vote to accuse each other, and the users who fail most often
are ranked on a "wall of shame".

The model covers the logic inside the HTTP handlers:

- the two time predicates;
- the "initiated user" predicate;
- how `create` builds a challenge's participant rows, and how `show`
  projects a challenge;
- the validation chain of `submitVote`, and its idempotent insert;
- setting and clearing a participant's proof link;
- the four user listings: recents, search, the global wall and the
  personal wall;
- the user queries: `createUser`, `getUser` and `patchUser`;
- `login`;
- the bearer-token middleware.

The database is an immutable value `Store.Db`:

- tables are sequences of rows, kept in storage order;
- votes are a set of `(challenge, victim, accuser)` triples;
- the schema's unique and foreign keys are predicates that the lemmas take
  as hypotheses.

A handler is a pure function from the database and the request to a
`Store.Step`, which holds the answer (`Common.Result`) and the database
afterwards. Some things are parameters rather than modelled:

- the clock is passed in as an integer `now`;
- identity-provider verification, JWT signing and verification, and the
  per-user participation statistics are function parameters;
- the `ParticipationStats` view is a list of rows.

Modules, one per file: `Common`, `ChallengeTime`, `Users`, `Store`,
`Ordering`, `Challenges`, `Votes`, `Proofs`, `UserServices`, `UserQueries`,
`Auth` and `TokenCheck`.

### Where the program contradicts itself

- **End of a challenge.** `submitVote` refuses a vote with "Challenge is not
  over." when `isChallengeOver` is false (src/challenges/votes/controller.ts:70-74).
  But `isChallengeOver` returns `isBefore(now, end)`
  (src/challenges/utils.ts:11), which is true only while the challenge is
  still running. The model keeps the code's behaviour, and Findings records
  the contradiction.
- **Who may vote.** `submitVote` checks only that both users exist: it counts
  the users whose id is the accuser's or the victim's
  (src/challenges/votes/controller.ts:50-56). `Votes.CountEither` models that
  count. Nothing checks that either user takes part in the challenge.
- **Invitation state.** The seed script writes a `joined_at` column for
  participants (prisma/seed.ts:132). The controllers read and write an
  `invite_status` enum, `PENDING` or `ACCEPTED`, and so does the model.

## Model

| member | source | states |
|---|---|---|
| ChallengeTime.IsChallengeOverIsNotEnded | src/challenges/utils.ts:10-12 | `isChallengeOver` is exactly "the end has not been reached"; at `now == end` it is false |
| ChallengeTime.IsChallengeOverCounterexample | src/challenges/utils.ts:10-12 | one millisecond after the end it answers false, and one millisecond before it answers true |
| ChallengeTime.TimeMonotone | src/challenges/utils.ts:10-12 | once `isChallengeOver` is false it stays false for every later `now`; "has ended" is likewise never undone |
| ChallengeTime.StartBeforeEndStrictOrder | src/challenges/utils.ts:15-17 | `startBeforeEnd` is irreflexive (false for equal times), asymmetric and transitive |
| Users.InitiatedIffNothingMissing | src/users/utils.ts:1-13 | a user is initiated iff none of the five profile fields is falsy |
| Users.ClearField | src/users/utils.ts:9 | blanking one field makes it falsy and leaves the truthiness of the other four unchanged |
| Users.OneMissingFieldSuffices | src/users/utils.ts:9-10 | one absent field makes the user uninitiated whatever the others are; an empty username or name counts as absent |
| Users.InitiatedMonotone | src/users/utils.ts:9-12 | filling in fields never turns an initiated user into an uninitiated one |
| Users.FindUser | src/challenges/controllers.ts:89-98 | the join finds a user iff one has that id, and the user found has that id |
| Users.FindUserUnique | src/challenges/controllers.ts:89-98 | under the primary key, the join finds exactly the user with that id |
| Users.CountIdUnique | src/users/services.ts:13-17 | under the primary key, the count of users with an id is 1 if the user exists and 0 if not |
| Store.RowIndex | src/challenges/proofs/controllers.ts:34-41 | the lookup by `(challengeId, userId)` finds a row iff one has that key, and it finds the first such row |
| Store.RowIndexUnique | src/challenges/proofs/controllers.ts:34-41 | under the primary key, the row found is the only row with that key |
| Store.FindChallenge | src/challenges/votes/controller.ts:66-69 | `findFirst` by id finds a challenge iff one has that id, and the challenge found has that id |
| Store.RowsOfMembers | src/challenges/controllers.ts:87-100 | a challenge's rows are exactly the table rows with that challenge id |
| Store.RowsOfDistinctUsers | src/challenges/controllers.ts:44 | under the primary key, each user appears in at most one row of a challenge |
| Store.DistinctUsersCount | src/challenges/controllers.ts:158 | rows that name each user once number as many as the users they name |
| Challenges.WithoutOwner | src/challenges/controllers.ts:24 | the filtered invitee list holds exactly the invitees other than the owner, each as many times as the request lists it, and no copy of the owner |
| Challenges.WithoutOwnerAppend | src/challenges/controllers.ts:24 | filtering keeps the request's order: the filter of two lists joined is the two filters joined |
| Challenges.WithoutOwnerOne | src/challenges/controllers.ts:24 | a single invitee survives the filter iff it is not the owner |
| Challenges.InviteRows | src/challenges/controllers.ts:33-43 | the data mentions exactly the owner and the invitees; the owner is ACCEPTED and everybody else is PENDING |
| Challenges.InsertSkippingDuplicates | src/challenges/controllers.ts:44 | existing rows are kept; a key gains a row iff it had one or the data mentions it; new rows come from the data and have no proof; the primary key is kept |
| Challenges.Create | src/challenges/controllers.ts:16-63 | succeeds iff the body has participants, the id is fresh and every user mentioned exists; it appends the challenge with no `startAt`; any failure is a server error that writes nothing |
| Challenges.CreateParticipants | src/challenges/controllers.ts:24-44 | the new challenge has one row per distinct user among the owner and the invitees; the owner is ACCEPTED even when listed as an invitee; everybody else is PENDING; the primary key holds |
| Challenges.InvitedRowsUsers | src/challenges/controllers.ts:33-44 | the users with a row of the new challenge are the set of invitees plus the owner |
| Challenges.RowsOfUsers | src/challenges/controllers.ts:87-100 | the users named by a challenge's rows are the users that challenge has a row for |
| Challenges.CreateKeepsForeignKeys | src/challenges/controllers.ts:25-51 | a successful create keeps every row pointing at an existing user and challenge |
| Challenges.PartitionParticipants | src/challenges/controllers.ts:124-149 | the loop builds exactly the reference lists: the initiated users of the ACCEPTED rows, and of the PENDING rows, in row order |
| Challenges.Show | src/challenges/controllers.ts:65-180 | NOT_FOUND iff no challenge has the id; otherwise title, description, start, end and type are those of the challenge with that id, the owner is the profile of the user its `ownerId` names, and `participantCount` is the number of its rows, which is at least `accepted` plus `pending` |
| Challenges.ListedCount | src/challenges/controllers.ts:124-149 | each initiated participant lands in exactly one list; uninitiated participants land in none |
| Challenges.ListedMembership | src/challenges/controllers.ts:128-148 | an entry is in a list iff some row with that status names an initiated user with that profile |
| Challenges.ListsDisjoint | src/challenges/controllers.ts:144-148 | no user is both accepted and pending |
| Challenges.ShowAfterCreate | src/challenges/controllers.ts:158 | right after `create`, `show` finds the challenge and counts the owner and every distinct invitee |
| Challenges.ShowLists | src/challenges/controllers.ts:124-149 | the lists of `show` are the reference lists over the challenge's rows |
| Challenges.ShowListsParticipant | src/challenges/controllers.ts:128-148 | an initiated participant is listed under the status of their row |
| Challenges.ShowListsInvitees | src/challenges/controllers.ts:33-44 | right after `create`, an initiated owner is accepted and each initiated invitee is pending |
| Votes.BothExistIffCountTwo | src/challenges/votes/controller.ts:50-56 | for two distinct ids, the OR-count is 2 iff both users exist |
| Votes.Validate | src/challenges/votes/controller.ts:27-48 | a missing id refuses with "malformed"; a self-vote with all ids present refuses with "cannot vote for yourself" |
| Votes.ValidateOrder | src/challenges/votes/controller.ts:27-77 | the validations run in source order and the first failing one decides the message; the chain passes iff the vote is admissible |
| Votes.SubmitVoteWith | src/challenges/votes/controller.ts:85-108 | every refusal is INVALID_REQUEST with nothing written; a success adds exactly that triple to the set |
| Votes.SubmitVoteIdempotent | src/challenges/votes/controller.ts:85-108 | submitting the same vote again succeeds and changes nothing |
| Votes.SubmitVoteGrowsByAtMostOne | src/challenges/votes/controller.ts:95-107 | after a success the triple is stored, nothing was removed, and the set grew by at most one |
| Votes.VoteWindow | src/challenges/votes/controller.ts:66-77 | as written, a vote is admitted only while `now < endAt`; with the intended gate, only once `endAt <= now` |
| Votes.VoteAfterEndRefused | src/challenges/votes/controller.ts:70 | a vote after the end is refused as "not over"; a vote before the end is admitted |
| Proofs.SetEvidence | src/challenges/proofs/controllers.ts:41-43 | only the link of the chosen row changes |
| Proofs.UpdateEvidence | src/challenges/proofs/controllers.ts:34-44 | the update fails iff no row has the key |
| Proofs.UpdateEvidenceFrame | src/challenges/proofs/controllers.ts:34-44 | under the primary key, the row with the key gets the new link and every other row is untouched |
| Proofs.UpdateEvidenceKeepsKeys | src/challenges/proofs/controllers.ts:34-44 | the update keeps the primary key |
| Proofs.SubmitProof | src/challenges/proofs/controllers.ts:14-55 | no upload gives INVALID_REQUEST; no row gives a server error with nothing written; otherwise it answers the upload's path and the participant table becomes the keyed update that sets the caller's link to it; other tables are untouched |
| Proofs.SubmitProofStores | src/challenges/proofs/controllers.ts:32-48 | after a submission the caller's row holds the uploaded path, and every other row is as it was |
| Proofs.DeleteProofAsWritten | src/challenges/proofs/controllers.ts:58-82 | as written, a successful delete sends no reply, and a failure is a server error with nothing written |
| Proofs.DeleteProof | src/challenges/proofs/controllers.ts:66-76 | succeeds iff the caller has a row; a failure is a server error with nothing written; a success makes the participant table the keyed update that clears the caller's link; other tables are untouched |
| Proofs.DeleteProofSameWrite | src/challenges/proofs/controllers.ts:58-82 | the corrected delete writes what the original writes; the only difference is the reply |
| Proofs.DeleteProofClears | src/challenges/proofs/controllers.ts:66-76 | after a delete the caller's row has no link, and every other row is as it was |
| Proofs.DeleteAfterSubmit | src/challenges/proofs/controllers.ts:66-76 | deleting twice equals deleting once; submit-then-delete leaves what a delete alone leaves |
| UserServices.EntryOf | src/users/services.ts:96-119 | a search entry carries the user's id, username, name and three avatar fields, the given completed, failed and vetoed counts, and no email |
| UserServices.OutEdges | src/users/services.ts:23-26 | the selected edges are exactly the contacts whose `pers1` is the caller |
| UserServices.OutEdgesSelects | src/users/services.ts:23-26 | the selection keeps table order (it splits over joined tables) and holds each of the caller's edges as many times as the table does, and no other edge |
| UserServices.GetUserRecents | src/users/services.ts:12-67 | UNAUTHORIZED iff the id does not match exactly one user; otherwise one entry per outgoing edge, in order, for its `pers2`: that user's id, names, avatar, completed and failed counts, and the vetoed count from the statistics |
| UserServices.RecentEntry | src/users/services.ts:39-62 | an entry describes the user at the other end of the edge, with that user's statistics |
| UserServices.RecentsAreContacts | src/users/services.ts:23-64 | every recent is a contact of the caller and is exactly the entry built from that user's row and statistics; every contact appears |
| UserServices.SearchRows | src/users/services.ts:70-95 | the results are the users with all five profile columns non-null and the query in the username or the name; no match is missed; sorted by username |
| UserServices.SearchUsers | src/users/services.ts:96-121 | the entries follow the selected users, in order |
| UserServices.SearchResultsMatch | src/users/services.ts:69-122 | each entry has a complete profile and contains the query; entries are in username order; every matching user appears |
| UserServices.WallRows | src/users/services.ts:137-147 | a wall holds only rows with all five profile columns non-null and `totalfailedcount > 0` (within scope), sorted, at most 100, and exactly min(100, eligible) of them, each eligible row at most as often as the view holds it |
| UserServices.WallOrder | src/users/services.ts:145 | a wall is ordered by `totalfailedcount` descending, then by username ascending |
| UserServices.WallKeepsTop | src/users/services.ts:145-146 | an eligible row left off a wall ranks no higher than any row on it |
| UserServices.WallCompleteBelowLimit | src/users/services.ts:146 | with at most 100 eligible rows, every one of them is on the wall |
| UserServices.WallEntry | src/users/services.ts:150-163 | an entry carries the row's id, username, name, three avatar fields, email, completed and failed counts, and exactly the vetoed count it is given |
| UserServices.GetGlobalWall | src/users/services.ts:124-166 | at most 100 entries, one per selected row in order, with the vetoed count read from `vetoedcount` |
| UserServices.RecentIds | src/users/services.ts:172-179 | the ids are the `pers2` of the caller's edges, one per edge in edge order; so every contact of the caller is collected and nothing else |
| UserServices.UserWallWith | src/users/services.ts:168-228 | with no contacts the answer is `[]`; every entry is one of the caller's contacts; at most 100 entries |
| UserServices.EmptyScopeWall | src/users/services.ts:181-184 | a wall scoped to an empty contact list is empty, so the shortcut for no contacts agrees with the query |
| UserServices.UserWallRows | src/users/services.ts:181-227 | the intended personal wall is, entry for entry, the wall scoped to the caller's contacts with each row's vetoed count |
| UserServices.UserWallScoped | src/users/services.ts:181-207 | the personal wall is the wall restricted to the contacts; the empty-contacts shortcut returns what the query would; every entry is eligible for the global wall |
| UserServices.UserWallVetoedLost | src/users/services.ts:211-224 | the personal wall as written lists the same entries as the corrected one, but never carries a vetoed count |
| UserServices.UserWallVetoedExample | src/users/services.ts:223 | a contact whose view row has vetoed count 2 gets no vetoed count as written, and 2 when corrected |
| UserQueries.CreateConflictCode | src/users/queries.ts:30-42 | a target that includes "email" gives EXISTING_ACCOUNT, checked first; then "username" gives EXISTING_USERNAME; anything else gives UNKNOWN_ERROR |
| UserQueries.PatchConflictCode | src/users/queries.ts:105-113 | a target that includes "username" gives EXISTING_USERNAME; anything else gives UNKNOWN_ERROR |
| UserQueries.ConflictExamples | src/users/queries.ts:30-42 | a target naming both columns is an existing account; index names are classified by the column names inside them |
| UserQueries.Violations | src/users/queries.ts:17-23 | the insert violates `email`, `username` or `userId` iff that value is already taken |
| UserQueries.CreateUser | src/users/queries.ts:9-44 | without a violation, exactly one user is appended, with the given email, name and username and no avatar; with one, nothing is written and the error is the classified one |
| UserQueries.CreateUserErrors | src/users/queries.ts:26-43 | a taken email is EXISTING_ACCOUNT, whatever the username; a taken username alone is EXISTING_USERNAME; a clash on the id alone is UNKNOWN_ERROR |
| UserQueries.CreateUserKeepsKeys | src/users/queries.ts:17-23 | an insert keeps the id, email and username keys |
| UserQueries.FirstSatisfying | src/users/queries.ts:57-63 | `findFirst` returns a user that meets every given key, and returns none only when no user does |
| UserQueries.GetUser | src/users/queries.ts:47-66 | no result when all three keys are falsy; otherwise a user meeting the keys given, found whenever one exists |
| UserQueries.GetUserByKey | src/users/queries.ts:53-65 | a lookup by id alone is the primary-key lookup; a lookup by email alone finds the one user with that email |
| UserQueries.NewSetting | src/users/queries.ts:93-98 | an absent setting keeps the stored value, and `true` is always written |
| UserQueries.Patched | src/users/queries.ts:77-99 | the patched row has the body's username, name and three avatar fields; each setting is the one `NewSetting` gives from the stored value and the body's; its id and email are kept |
| UserQueries.PatchUserWith | src/users/queries.ts:68-115 | succeeds iff the user exists and no other user holds the username; a missing user is UNKNOWN_ERROR and a taken username is EXISTING_USERNAME, with nothing written |
| UserQueries.PatchUserFrame | src/users/queries.ts:77-99 | only the caller's row changes, and the unique keys still hold |
| UserQueries.PatchInitiates | src/users/queries.ts:81-87 | after a patch with a non-empty username, name and background, the user is initiated |
| UserQueries.SettingGates | src/users/queries.ts:93-98 | as written, the stored setting becomes `old || given == true`; the corrected update stores exactly the given value |
| UserQueries.PatchCannotClearSetting | src/users/queries.ts:93-98 | turning both settings off leaves them on as written, and turns them off when corrected |
| Auth.RowWithEmail | src/auth/controllers.ts:23-35 | the row found has the email; none is found only when no row has it |
| Auth.Resolve | src/auth/controllers.ts:37-48 | an existing row is used as it is; otherwise `createUser` runs with only the email, and resolution succeeds iff that call succeeds, answering the new user with every count 0; a failure writes nothing |
| Auth.ResolveFindsOrCreates | src/auth/controllers.ts:42-48 | a returning user writes nothing and is found; a first login succeeds iff the email and the fresh id are both unused, then appends one user with that id, no profile and the default settings, keeps the other tables, and answers counts 0; a failed first login writes nothing |
| Auth.Project | src/auth/controllers.ts:65-84 | the name is shown iff the username and name are truthy; the counts iff the username is; each avatar field iff the username and that field are; the settings are always copied |
| Auth.ProjectInitiated | src/auth/controllers.ts:70-78 | an initiated user's response shows the whole profile and both counts |
| Auth.Login | src/auth/controllers.ts:10-91 | every failure is INVALID_CREDENTIALS and writes nothing; with a verified email, login succeeds iff resolving that email succeeds; a success answers the signed token and the projection of the resolved user |
| Auth.FirstLoginBare | src/auth/controllers.ts:42-78 | a first login with an unused email and id succeeds and answers only the id, the email and the settings |
| TokenCheck.Prop | src/common/middlewares/checkToken.ts:18-20 | any property of a non-object, or a missing property, reads as `undefined` |
| TokenCheck.PayloadRoundTrip | src/common/middlewares/checkToken.ts:16-22 | a payload passes iff it is an object with numeric `iat` and `exp` and a string `userId`; every typed payload passes and reads back unchanged |
| TokenCheck.PayloadRejects | src/common/middlewares/checkToken.ts:16-22 | strings, numbers, `null` and objects missing a field or with a wrong-typed one never pass |
| TokenCheck.Split | src/common/middlewares/checkToken.ts:36 | a split always yields at least one piece, and no piece contains a space |
| TokenCheck.JoinSplit | src/common/middlewares/checkToken.ts:36 | joining the pieces with spaces gives the header back |
| TokenCheck.SplitJoin | src/common/middlewares/checkToken.ts:36 | splitting space-free pieces joined by spaces gives the pieces back |
| TokenCheck.BearerToken | src/common/middlewares/checkToken.ts:36 | a second segment exists iff the header contains a space |
| TokenCheck.BearerOfScheme | src/common/middlewares/checkToken.ts:36 | the token of "Bearer t" is `t` |
| TokenCheck.VerifyHeader | src/common/middlewares/checkToken.ts:36-45 | a header without a second segment, or with an empty one, never verifies, since `jwt.verify` throws on an `undefined` or empty token; otherwise the result is the verifier's answer on that segment |
| TokenCheck.CheckValidToken | src/common/middlewares/checkToken.ts:25-54 | a missing header, a header without a token or with an empty one, a failed verification or a wrongly shaped payload each answer UNAUTHORIZED and nothing else |
| TokenCheck.NextOnceIffAccepted | src/common/middlewares/checkToken.ts:30-53 | `next` runs exactly once, after the payload is stored, iff the header is present and holds a non-empty token that verifies to a payload of the right shape; otherwise it runs zero times |
| Ordering.Filter | src/users/services.ts:72-84 | the selection keeps exactly the rows meeting the condition, and never more copies than the table holds |
| Ordering.FilterAppend | src/users/services.ts:72-84 | the selection keeps table order: selecting from two tables joined is the two selections joined |
| Ordering.FilterCount | src/users/services.ts:72-84 | a selected row appears as many times as in the table, and a rejected row not at all |
| Ordering.Take | src/users/services.ts:146 | `LIMIT n` keeps the first min(n, length) rows, so no row more often than the input holds it |
| Ordering.SortBy | src/users/services.ts:86-88 | `ORDER BY` returns an ordered permutation of its input |
| Ordering.InsertBy | src/users/services.ts:86-88 | inserting into an ordered list keeps it ordered and adds exactly that element |
| Ordering.CountThenNameKey | src/users/services.ts:145 | the key `[-count] + name` orders by count descending, then by name |
| Ordering.LexLeTotal | src/users/services.ts:86-88 | any two keys are comparable |
| Ordering.LexLeTransitive | src/users/services.ts:86-88 | the key order is transitive |
| Ordering.LexLeAntisymmetric | src/users/services.ts:86-88 | two keys that each sort no later than the other are equal |

## Left out

- HTTP: status codes, messages, JSON formatting, `Location` headers and
  logging. A handler's outcome is an error code or a success value.
- Dates: parsing and ISO serialisation (`parseJSON`, `toISOString`).
  Instants are integers, and `now` is a parameter.
- Statistics: `getParticipationStats`, `validParticipationFilter` and the
  `ParticipationStats` view are not part of this model. Recents and search
  take the statistics as a function of the user id. The walls and login
  take the view's rows as a list.
- Challenge storage: `createChallenge` is not part of this model. The shown
  `src/challenges/queries.ts` does not define it. `Challenges.Create` models
  the nested create that its argument describes, including the database
  rejecting unknown users and duplicate ids.
- Foreign services: identity-provider verification, JWT signing and JWT
  verification are parameters (`Auth.ProviderAnswer`, `sign`, `verify`). The
  other helpers in `src/auth/services.ts` are not part of this model.
- Upload storage: the upload middleware and its storage configuration are
  left out. An upload is only its `path`.
- Collation: `ORDER BY username` is modelled as code-point order of the
  characters. The database collation may order letters differently.
- Search matching: Prisma's `contains` is modelled as plain case-sensitive
  substring search.
- Numbers: JavaScript numbers are modelled as unbounded integers. `typeof x ===
  "number"` also admits fractions, `NaN` and infinities; `TokenCheck.JsValue`
  has only integers. Arrays are not modelled as payloads.
- Concurrency: each handler is one atomic transition. Races between the
  reads and the writes of `submitVote`, and between two concurrent creates,
  are not modelled.
- Database reports: when one insert violates several unique keys,
  `UserQueries.Violations` reports all of them. The database may report
  only one, and which one it reports is not modelled.
- A `patchUser` of a missing user is modelled as UNKNOWN_ERROR. This assumes
  that `getMeta`, which is not part of this model, gives a target without
  "username" for a not-found error.
- Thrown helpers: `createUser` ends a failure with `throw new Error(...)`
  rather than a `CustomError`. Both become an error code here.
- Challenges.Show: its contract does not restate the serialisation of the
  owner's fields (`?? undefined`) or of the dates as ISO strings. `OwnerView`
  copies the owner's columns as they are.
- UserServices.SearchUsers: it does not state the content of the
  statistics fields, which come from `getParticipationStats`.
- Ordering.Filter: its own contract states inclusion of multisets. The
  exact multiplicities are stated by Ordering.FilterCount and the order by
  Ordering.FilterAppend.
- Other handlers: accept, reject, complete, update, delete, veto, the vote
  tally, contact-graph growth and push notifications are not in the
  modelled files.

## Findings

| source | as written | input that shows it | evidently intended | confidence | as-written member | corrected member |
|---|---|---|---|---|---|---|
| src/challenges/utils.ts:10-12 | `isChallengeOver` returns `isBefore(new Date(), end)`, which is true while the challenge is still running, so `submitVote` (src/challenges/votes/controller.ts:70) admits votes only before the end | a challenge ending at 1000 and a vote at 2000 are refused with "Challenge is not over."; the same vote at 999 is admitted | voting opens once `endAt <= now` | high; not executed | Votes.VoteAfterEndRefused | Votes.VoteWindow |
| src/users/queries.ts:93-98 | a setting is written only when truthy, so a `false` in the patch never reaches the row | a user with both settings on patches both to `false`; they stay on | write a setting whenever the body gives it | high; not executed | UserQueries.PatchCannotClearSetting | UserQueries.SettingGates |
| src/challenges/proofs/controllers.ts:58-82 | after a successful update, `deleteProof` sends no response, so the client waits until its request times out | any caller with a participant row for the challenge | answer success once the link is cleared | high; not executed | Proofs.DeleteProofAsWritten | Proofs.DeleteProof |
| src/users/services.ts:223 | `getUserWall` reads `r.vetoedCount`, while the global wall reads the view's lower-case `vetoedcount` (line 162), so every personal-wall entry lacks its vetoed count | a caller with one contact whose view row has vetoed count 2; the entry has no vetoed count | read `r.vetoedcount` | medium, because the view's column names come from its definition, which is not part of this model; not executed | UserServices.UserWallVetoedExample | UserServices.UserWallScoped |

=== FILE: auth.dfy ===
/** `login`: exchange a verified identity-provider token for the user's
    record, creating the user on first login, and project the record into
    the response. */
module Auth {
  import opened Common
  import opened Users
  import opened Store
  import opened UserServices
  import opened UserQueries

  /** What the identity provider's token check gives back. */
  datatype ProviderAnswer = ProviderThrew | NoToken | Verified(email: Option<string>)

  /** The first row of the `ParticipationStats` view with this email
      (`LIMIT 1`). */
  function RowWithEmail(view: seq<StatsRow>, email: string): (r: Option<StatsRow>)
    ensures r.Some? ==> r.value in view && r.value.user.email == email
    ensures r.None? ==> forall x | x in view :: x.user.email != email
  {
    if view == [] then None
    else if view[0].user.email == email then Some(view[0])
    else
      assert forall x | x in view :: x == view[0] || x in view[1..];
      RowWithEmail(view[1..], email)
  }

  /** Find-or-create: the stats row of the user with this email, or a new
      user with both counts 0. */
  function Resolve(db: Db, view: seq<StatsRow>, email: string, freshId: string, defaults: Settings): (s: Step<StatsRow>)
    ensures RowWithEmail(view, email).Some? ==> s == Step(Ok(RowWithEmail(view, email).value), db)
    ensures RowWithEmail(view, email).None? ==>
      s.db == CreateUser(db, NewUser(email, None, None), freshId, defaults).db
    ensures RowWithEmail(view, email).None? ==>
      (s.out.Ok? <==> CreateUser(db, NewUser(email, None, None), freshId, defaults).out.Ok?)
    ensures RowWithEmail(view, email).None? && s.out.Ok? ==>
      s.out.value == StatsRow(CreateUser(db, NewUser(email, None, None), freshId, defaults).out.value, 0, 0, 0, 0)
    ensures s.out.Ok? ==> s.out.value.user.email == email
    ensures s.out.Err? ==> s.db == db
  {
    match RowWithEmail(view, email)
    case Some(row) => Step(Ok(row), db)
    case None =>
      var created := CreateUser(db, NewUser(email, None, None), freshId, defaults);
      match created.out
      case Ok(u) => Step(Ok(StatsRow(u, 0, 0, 0, 0)), created.db)
      case Err(code) => Step(Err(code), created.db)
  }

  /** A returning user is found and nothing is written. A first login
      succeeds exactly when the email is not registered yet and the new id
      is unused; it then creates exactly one user, with no profile, the
      default settings and both counts 0, and otherwise writes nothing. */
  lemma ResolveFindsOrCreates(db: Db, view: seq<StatsRow>, email: string, freshId: string, defaults: Settings)
    ensures (exists x | x in view :: x.user.email == email) ==>
      var s := Resolve(db, view, email, freshId, defaults);
      s.db == db && s.out.Ok? && s.out.value in view
    ensures var s := Resolve(db, view, email, freshId, defaults);
      (forall x | x in view :: x.user.email != email) ==>
        && (s.out.Ok? <==> !EmailTaken(db.users, email) && !HasUser(db.users, freshId))
        && (s.out.Err? ==> s.db == db)
        && (s.out.Ok? ==>
              && s.db.users == db.users + [s.out.value.user]
              && s.db.challenges == db.challenges && s.db.participants == db.participants
              && s.out.value.completecount == 0 && s.out.value.failedcount == 0
              && s.out.value.user.userId == freshId
              && s.out.value.user.username.None? && s.out.value.user.name.None?
              && s.out.value.user.settings == defaults)
  {
  }

  /** The `user` object of the response. */
  datatype AuthUser = AuthUser(
    userId: string,
    email: string,
    username: Option<string>,
    name: Option<string>,
    completed: Option<int>,
    failed: Option<int>,
    animal: Option<Animal>,
    color: Option<Color>,
    background: Option<string>,
    settings: Settings)

  datatype LoginReply = LoginReply(token: string, user: AuthUser)

  /** The response projection: fields beyond the username are only shown
      once the user has chosen a username. */
  function Project(row: StatsRow): (a: AuthUser)
    ensures a.userId == row.user.userId && a.email == row.user.email && a.username == row.user.username
    ensures a.name.Some? <==> Truthy(row.user.username) && Truthy(row.user.name)
    ensures a.name.Some? ==> a.name == row.user.name
    ensures a.completed.Some? <==> Truthy(row.user.username)
    ensures a.failed.Some? <==> Truthy(row.user.username)
    ensures a.completed.Some? ==> a.completed.value == row.completecount && a.failed.value == row.failedcount
    ensures a.animal.Some? <==> Truthy(row.user.username) && row.user.avatarAnimal.Some?
    ensures a.color.Some? <==> Truthy(row.user.username) && row.user.avatarColor.Some?
    ensures a.background.Some? <==> Truthy(row.user.username) && Truthy(row.user.avatarBg)
    ensures a.animal.Some? ==> a.animal == row.user.avatarAnimal
    ensures a.color.Some? ==> a.color == row.user.avatarColor
    ensures a.background.Some? ==> a.background == row.user.avatarBg
    ensures a.settings == row.user.settings
  {
    var u := row.user;
    var named := Truthy(u.username);
    AuthUser(
      u.userId, u.email, u.username,
      if named && Truthy(u.name) then u.name else None,
      if named then Some(row.completecount) else None,
      if named then Some(row.failedcount) else None,
      if named && u.avatarAnimal.Some? then u.avatarAnimal else None,
      if named && u.avatarColor.Some? then u.avatarColor else None,
      if named && Truthy(u.avatarBg) then u.avatarBg else None,
      u.settings)
  }

  /** For an initiated user the response shows the whole profile. */
  lemma ProjectInitiated(row: StatsRow)
    requires IsUserInitiated(row.user)
    ensures var a := Project(row);
      a.name == row.user.name && a.animal == row.user.avatarAnimal && a.color == row.user.avatarColor
      && a.background == row.user.avatarBg
      && a.completed == Some(row.completecount) && a.failed == Some(row.failedcount)
  {
  }

  /** `login`. `sign` stands for the token signer; every failure, a
      thrown one included, is answered with INVALID_CREDENTIALS. */
  function Login(db: Db, answer: ProviderAnswer, view: seq<StatsRow>, freshId: string,
                 defaults: Settings, sign: User -> string): (s: Step<LoginReply>)
    ensures s.out.Err? ==> s.out.code == InvalidCredentials
    ensures !(answer.Verified? && Truthy(answer.email)) ==> s == Step(Err(InvalidCredentials), db)
    ensures s.out.Err? ==> s.db == db
    ensures s.out.Ok? ==> answer.Verified? && Truthy(answer.email) && s.out.value.user.email == answer.email.value
    ensures answer.Verified? && Truthy(answer.email) ==>
      (s.out.Ok? <==> Resolve(db, view, answer.email.value, freshId, defaults).out.Ok?)
    ensures s.out.Ok? ==> var found := Resolve(db, view, answer.email.value, freshId, defaults);
      found.out.Ok? && s.out.value == LoginReply(sign(found.out.value.user), Project(found.out.value)) && s.db == found.db
  {
    if !answer.Verified? || !Truthy(answer.email) then Step(Err(InvalidCredentials), db)
    else
      var found := Resolve(db, view, answer.email.value, freshId, defaults);
      match found.out
      case Err(_) => Step(Err(InvalidCredentials), found.db)
      case Ok(row) => Step(Ok(LoginReply(sign(row.user), Project(row))), found.db)
  }

  /** A first login with an unregistered email and an unused id succeeds
      and answers a bare profile: the account's id and email, nothing else
      but the settings. */
  lemma FirstLoginBare(db: Db, email: string, view: seq<StatsRow>, freshId: string,
                       defaults: Settings, sign: User -> string)
    requires email != "" && forall x | x in view :: x.user.email != email
    requires !EmailTaken(db.users, email) && !HasUser(db.users, freshId)
    ensures var s := Login(db, Verified(Some(email)), view, freshId, defaults, sign);
      s.out.Ok? && s.out.value.user == AuthUser(freshId, email, None, None, None, None, None, None, None, defaults)
  {
    ResolveFindsOrCreates(db, view, email, freshId, defaults);
  }
}

=== FILE: challenge_time.dfy ===
/** The time predicates of the challenge module. Instants are integer
    milliseconds; the clock reading `now` is passed in. */
module ChallengeTime {

  /** `isChallengeOver(end)` exactly as written: `isBefore(new Date(), end)`,
      which holds while `now` is strictly before `end`, i.e. while the
      challenge is still running. The name promises the opposite. */
  predicate IsChallengeOver(now: int, end: int)
  {
    now < end
  }

  /** What the name `isChallengeOver` evidently means: `end` has been
      reached. */
  predicate HasEnded(now: int, end: int)
  {
    end <= now
  }

  /** `startBeforeEnd(start, end)`: `isBefore(start, end)`. */
  predicate StartBeforeEnd(start: int, end: int)
  {
    start < end
  }

  /** The predicate as written is the exact negation of the intended one:
      it answers "not over yet". */
  lemma IsChallengeOverIsNotEnded(now: int, end: int)
    ensures IsChallengeOver(now, end) <==> !HasEnded(now, end)
    ensures now == end ==> !IsChallengeOver(now, end) && HasEnded(now, end)
  {
  }

  /** A challenge ending at 1000, looked at a millisecond later, has ended,
      yet `IsChallengeOver` says no; a millisecond before the end it says yes. */
  lemma IsChallengeOverCounterexample()
    ensures HasEnded(1001, 1000) && !IsChallengeOver(1001, 1000)
    ensures !HasEnded(999, 1000) && IsChallengeOver(999, 1000)
  {
  }

  /** Once `IsChallengeOver` is false it stays false as time moves on, and
      once `HasEnded` holds it keeps holding: derived state never moves
      backwards in time. */
  lemma TimeMonotone(t1: int, t2: int, end: int)
    requires t1 <= t2
    ensures !IsChallengeOver(t1, end) ==> !IsChallengeOver(t2, end)
    ensures HasEnded(t1, end) ==> HasEnded(t2, end)
  {
  }

  /** `StartBeforeEnd` is a strict order: irreflexive, asymmetric and
      transitive. */
  lemma StartBeforeEndStrictOrder(a: int, b: int, c: int)
    ensures !StartBeforeEnd(a, a)
    ensures !(StartBeforeEnd(a, b) && StartBeforeEnd(b, a))
    ensures StartBeforeEnd(a, b) && StartBeforeEnd(b, c) ==> StartBeforeEnd(a, c)
  {
  }
}

=== FILE: challenges.dfy ===
/** `create` and `show` of the challenge controller: building the
    participant rows of a new challenge, and projecting a challenge with its
    participants split into accepted and pending. */
module Challenges {
  import opened Common
  import opened Users
  import opened Store
  import opened Ordering

  /** The body of `POST /challenges`, with `endAt` already parsed to an
      instant. `participants` may be missing from a malformed body. The body's
      `startAt` and `notificationMessage` are not read by `create`. */
  datatype ChallengePost = ChallengePost(
    title: string,
    description: Option<string>,
    endAt: int,
    kind: ChallengeType,
    participants: Option<seq<string>>)

  /** One entry of the nested `createMany` data list. */
  datatype NewRow = NewRow(userId: string, inviteStatus: InviteStatus)

  /** True when some entry of `data` is for user `u`. */
  predicate Mentions(data: seq<NewRow>, u: string)
  {
    exists i | 0 <= i < |data| :: data[i].userId == u
  }

  /** The status a new challenge gives a user: the owner has accepted, every
      invitee is pending. */
  function StatusFor(ownerId: string, u: string): InviteStatus
  {
    if u == ownerId then Accepted else Pending
  }

  /** The filter's condition: not the owner. */
  function NotOwner(ownerId: string): string -> bool
  {
    (p: string) => p != ownerId
  }

  /** `participants.filter((p) => p !== userId)`: every invitee other than
      the owner, each copy kept. */
  function WithoutOwner(ps: seq<string>, ownerId: string): (r: seq<string>)
    ensures forall p :: p in r <==> p in ps && p != ownerId
    ensures multiset(r) == multiset(ps)[ownerId := 0]
  {
    var r := Filter(ps, NotOwner(ownerId));
    assert multiset(r) == multiset(ps)[ownerId := 0] by {
      forall x
        ensures multiset(r)[x] == multiset(ps)[ownerId := 0][x]
      {
        FilterCount(ps, NotOwner(ownerId), x);
      }
    }
    r
  }

  /** The filter keeps the invitees in their order: it distributes over
      concatenation. */
  lemma WithoutOwnerAppend(a: seq<string>, b: seq<string>, ownerId: string)
    ensures WithoutOwner(a + b, ownerId) == WithoutOwner(a, ownerId) + WithoutOwner(b, ownerId)
  {
    FilterAppend(a, b, NotOwner(ownerId));
  }

  /** A single invitee is kept unless it is the owner. */
  lemma WithoutOwnerOne(p: string, ownerId: string)
    ensures WithoutOwner([p], ownerId) == if p == ownerId then [] else [p]
  {
    assert [p][1..] == [];
  }

  /** The `createMany` data: one PENDING entry per remaining invitee, in
      order, then the owner's ACCEPTED entry. */
  function InviteRows(ownerId: string, ps: seq<string>): (data: seq<NewRow>)
    ensures forall i | 0 <= i < |data| :: data[i].inviteStatus == StatusFor(ownerId, data[i].userId)
    ensures forall u :: Mentions(data, u) <==> u == ownerId || u in ps
  {
    var invitees := WithoutOwner(ps, ownerId);
    var data := seq(|invitees|, i requires 0 <= i < |invitees| => NewRow(invitees[i], Pending))
      + [NewRow(ownerId, Accepted)];
    assert forall i | 0 <= i < |invitees| :: invitees[i] in invitees && invitees[i] != ownerId;
    assert Mentions(data, ownerId) by { assert data[|data| - 1].userId == ownerId; }
    assert forall u | u in ps && u != ownerId :: Mentions(data, u) by {
      forall u | u in ps && u != ownerId
        ensures Mentions(data, u)
      {
        assert u in invitees;
        var k :| 0 <= k < |invitees| && invitees[k] == u;
        assert data[k].userId == u;
      }
    }
    data
  }

  /** One entry of `createMany` with `skipDuplicates: true`: appended
      unless a row with its key is already present. */
  function InsertOne(table: seq<Participant>, challengeId: string, d: NewRow): (r: seq<Participant>)
    ensures |table| <= |r| <= |table| + 1 && r[..|table|] == table
    ensures |r| == |table| + 1 <==> !HasRow(table, challengeId, d.userId)
    ensures |r| == |table| + 1 ==> r[|table|] == Participant(challengeId, d.userId, d.inviteStatus, None)
  {
    if HasRow(table, challengeId, d.userId) then table
    else table + [Participant(challengeId, d.userId, d.inviteStatus, None)]
  }

  /** After one entry, a key has a row iff it had one or the entry names it. */
  lemma InsertOneRows(table: seq<Participant>, challengeId: string, d: NewRow)
    ensures forall u :: (HasRow(InsertOne(table, challengeId, d), challengeId, u)
      <==> HasRow(table, challengeId, u) || u == d.userId)
  {
    var next := InsertOne(table, challengeId, d);
    if !HasRow(table, challengeId, d.userId) {
      assert IsRowOf(next[|next| - 1], challengeId, d.userId);
      forall u | HasRow(next, challengeId, u)
        ensures HasRow(table, challengeId, u) || u == d.userId
      {
        var i :| 0 <= i < |next| && IsRowOf(next[i], challengeId, u);
        if i < |table| { assert IsRowOf(table[i], challengeId, u); }
      }
      forall u | HasRow(table, challengeId, u)
        ensures HasRow(next, challengeId, u)
      {
        var i :| 0 <= i < |table| && IsRowOf(table[i], challengeId, u);
        assert IsRowOf(next[i], challengeId, u);
      }
    }
  }

  /** One entry keeps the primary key. */
  lemma InsertOneKeepsKeys(table: seq<Participant>, challengeId: string, d: NewRow)
    ensures UniqueParticipantKeys(table) ==> UniqueParticipantKeys(InsertOne(table, challengeId, d))
  {
    var next := InsertOne(table, challengeId, d);
    if UniqueParticipantKeys(table) && !HasRow(table, challengeId, d.userId) {
      forall i, j | 0 <= i < j < |next|
        ensures !IsRowOf(next[j], next[i].challengeId, next[i].userId)
      {
        if j < |table| {
          assert next[i] == table[i] && next[j] == table[j];
        } else {
          assert next[i] == table[i];
        }
      }
    }
  }

  /** The users a list of entries mentions: its head's, and its tail's. */
  lemma MentionsCons(data: seq<NewRow>)
    requires data != []
    ensures forall u :: Mentions(data, u) <==> u == data[0].userId || Mentions(data[1..], u)
  {
    forall u | Mentions(data, u) && u != data[0].userId
      ensures Mentions(data[1..], u)
    {
      var i :| 0 <= i < |data| && data[i].userId == u;
      assert data[1..][i - 1].userId == u;
    }
    forall u | Mentions(data[1..], u)
      ensures Mentions(data, u)
    {
      var i :| 0 <= i < |data[1..]| && data[1..][i].userId == u;
      assert data[i + 1].userId == u;
    }
  }

  /** `createMany` with `skipDuplicates: true`: each entry becomes a new row
      unless a row with its key is already present, in which case it is
      skipped. Rows already in the table are untouched. */
  function InsertSkippingDuplicates(table: seq<Participant>, challengeId: string, data: seq<NewRow>): (r: seq<Participant>)
    ensures |table| <= |r| && r[..|table|] == table
    ensures forall i | |table| <= i < |r| ::
      r[i].challengeId == challengeId && r[i].evidenceLink.None?
      && NewRow(r[i].userId, r[i].inviteStatus) in data
    ensures forall u :: HasRow(r, challengeId, u) <==> HasRow(table, challengeId, u) || Mentions(data, u)
    ensures UniqueParticipantKeys(table) ==> UniqueParticipantKeys(r)
    decreases |data|
  {
    if data == [] then table
    else
      var next := InsertOne(table, challengeId, data[0]);
      InsertOneRows(table, challengeId, data[0]);
      MentionsCons(data);
      InsertOneKeepsKeys(table, challengeId, data[0]);
      var r := InsertSkippingDuplicates(next, challengeId, data[1..]);
      assert r[..|table|] == next[..|table|];
      assert forall x | x in data[1..] :: x in data;
      assert data[0] in data;
      r
  }

  /** True when every entry of `data` names an existing user: the foreign
      key that makes the nested create fail otherwise. */
  predicate AllUsersExist(users: seq<User>, data: seq<NewRow>)
  {
    forall i | 0 <= i < |data| :: HasUser(users, data[i].userId)
  }

  /** `create`: builds the challenge (its `startAt` left null) and its
      participant rows in one nested create. A body without `participants`
      makes `.filter` throw; an id clash or a participant who is not a user
      makes the database reject the whole create. Each of these ends in a
      server error with nothing written. */
  function Create(db: Db, ownerId: string, body: ChallengePost, freshId: string): (s: Step<string>)
    ensures s.out.Err? ==> s.out.code == UnknownError && s.db == db
    ensures s.out.Ok? <==>
      && body.participants.Some?
      && !HasChallenge(db.challenges, freshId)
      && HasUser(db.users, ownerId)
      && forall p | p in body.participants.value :: HasUser(db.users, p)
    ensures s.out.Ok? ==>
      && s.out.value == freshId
      && s.db.users == db.users && s.db.votes == db.votes && s.db.contacts == db.contacts
      && s.db.challenges == db.challenges + [Challenge(freshId, body.title, body.description, None, body.endAt, body.kind, ownerId)]
  {
    if body.participants.None? then Step(Err(UnknownError), db)
    else
      var data := InviteRows(ownerId, body.participants.value);
      assert AllUsersExist(db.users, data) <==>
        HasUser(db.users, ownerId) && forall p | p in body.participants.value :: HasUser(db.users, p) by {
        if AllUsersExist(db.users, data) {
          forall p | p in body.participants.value
            ensures HasUser(db.users, p)
          {
            assert Mentions(data, p);
          }
          assert Mentions(data, ownerId);
        }
      }
      if HasChallenge(db.challenges, freshId) || !AllUsersExist(db.users, data) then
        Step(Err(UnknownError), db)
      else
        var c := Challenge(freshId, body.title, body.description, None, body.endAt, body.kind, ownerId);
        Step(Ok(freshId), db.(challenges := db.challenges + [c],
                              participants := InsertSkippingDuplicates(db.participants, freshId, data)))
  }

  /** Selecting one challenge's rows distributes over concatenation. */
  lemma {:induction false} RowsOfAppend(a: seq<Participant>, b: seq<Participant>, challengeId: string)
    ensures RowsOf(a + b, challengeId) == RowsOf(a, challengeId) + RowsOf(b, challengeId)
    decreases |b|
  {
    if b == [] {
      assert a + b == a;
    } else {
      var ab := a + b;
      var prefix := b[..|b| - 1];
      var last := b[|b| - 1];
      assert ab[..|ab| - 1] == a + prefix;
      assert ab[|ab| - 1] == last;
      RowsOfAppend(a, prefix, challengeId);
    }
  }

  /** A table without rows of the challenge contributes none. */
  lemma {:induction false} RowsOfNone(table: seq<Participant>, challengeId: string)
    requires forall i | 0 <= i < |table| :: table[i].challengeId != challengeId
    ensures RowsOf(table, challengeId) == []
  {
    if table != [] {
      RowsOfNone(table[..|table| - 1], challengeId);
    }
  }

  /** A table whose rows all belong to the challenge is selected whole. */
  lemma {:induction false} RowsOfAll(table: seq<Participant>, challengeId: string)
    requires forall i | 0 <= i < |table| :: table[i].challengeId == challengeId
    ensures RowsOf(table, challengeId) == table
  {
    if table != [] {
      RowsOfAll(table[..|table| - 1], challengeId);
      assert table == table[..|table| - 1] + [table[|table| - 1]];
    }
  }

  /** Rows of the challenge appended to a table that had none of them are
      exactly the challenge's rows afterwards. */
  lemma RowsOfExtended(table: seq<Participant>, extra: seq<Participant>, challengeId: string)
    requires forall i | 0 <= i < |table| :: table[i].challengeId != challengeId
    requires forall i | 0 <= i < |extra| :: extra[i].challengeId == challengeId
    ensures RowsOf(table + extra, challengeId) == extra
  {
    RowsOfAppend(table, extra, challengeId);
    RowsOfNone(table, challengeId);
    RowsOfAll(extra, challengeId);
  }

  /** Inserting into a table that has no rows of the challenge: the
      challenge's rows afterwards are exactly the appended ones. */
  lemma InsertedRowsOf(table: seq<Participant>, challengeId: string, data: seq<NewRow>)
    requires forall i | 0 <= i < |table| :: table[i].challengeId != challengeId
    ensures var all := InsertSkippingDuplicates(table, challengeId, data);
      all == table + all[|table|..] && RowsOf(all, challengeId) == all[|table|..]
  {
    var all := InsertSkippingDuplicates(table, challengeId, data);
    var extra := all[|table|..];
    assert all == table + extra by {
      assert all[..|table|] == table;
    }
    assert forall i | 0 <= i < |extra| :: extra[i].challengeId == challengeId by {
      forall i | 0 <= i < |extra|
        ensures extra[i].challengeId == challengeId
      {
        assert extra[i] == all[|table| + i];
      }
    }
    RowsOfExtended(table, extra, challengeId);
  }

  /** A successful `create` stores the `createMany` result. */
  lemma CreateStores(db: Db, ownerId: string, body: ChallengePost, freshId: string)
    requires Create(db, ownerId, body, freshId).out.Ok?
    ensures Create(db, ownerId, body, freshId).db.participants
      == InsertSkippingDuplicates(db.participants, freshId, InviteRows(ownerId, body.participants.value))
  {
  }

  /** A database whose rows all name existing challenges has no row of an
      unused challenge id. */
  lemma NoRowsOfUnusedId(db: Db, freshId: string)
    requires ParticipantsReferToChallenges(db)
    requires !HasChallenge(db.challenges, freshId)
    ensures forall i | 0 <= i < |db.participants| :: db.participants[i].challengeId != freshId
    ensures forall u :: !HasRow(db.participants, freshId, u)
  {
    forall i | 0 <= i < |db.participants|
      ensures db.participants[i].challengeId != freshId
    {
      assert db.participants[i] in db.participants;
    }
  }

  /** Rows `createMany` adds for a challenge that had none carry the status
      their entry gives and no proof. */
  lemma InsertedRowsStatus(table: seq<Participant>, challengeId: string, data: seq<NewRow>, ownerId: string)
    requires forall i | 0 <= i < |table| :: table[i].challengeId != challengeId
    requires forall i | 0 <= i < |data| :: data[i].inviteStatus == StatusFor(ownerId, data[i].userId)
    ensures forall p | p in RowsOf(InsertSkippingDuplicates(table, challengeId, data), challengeId) ::
      p.inviteStatus == StatusFor(ownerId, p.userId) && p.evidenceLink.None?
  {
    var all := InsertSkippingDuplicates(table, challengeId, data);
    InsertedRowsOf(table, challengeId, data);
    var rows := RowsOf(all, challengeId);
    forall p | p in rows
      ensures p.inviteStatus == StatusFor(ownerId, p.userId) && p.evidenceLink.None?
    {
      var k :| 0 <= k < |rows| && rows[k] == p;
      assert p == all[|table| + k];
      var j :| 0 <= j < |data| && data[j] == NewRow(p.userId, p.inviteStatus);
    }
  }

  /** The rows `createMany` leaves for a challenge that had none carry the
      status `StatusFor` gives and no proof. */
  lemma InvitedRowsStatus(table: seq<Participant>, challengeId: string, ownerId: string, ps: seq<string>)
    requires forall i | 0 <= i < |table| :: table[i].challengeId != challengeId
    ensures var all := InsertSkippingDuplicates(table, challengeId, InviteRows(ownerId, ps));
      forall p | p in RowsOf(all, challengeId) :: p.inviteStatus == StatusFor(ownerId, p.userId) && p.evidenceLink.None?
  {
    InsertedRowsStatus(table, challengeId, InviteRows(ownerId, ps), ownerId);
  }

  /** A user has a row of the new challenge exactly when they are the
      owner or an invitee. */
  lemma InvitedRow(table: seq<Participant>, challengeId: string, ownerId: string, ps: seq<string>, u: string)
    requires forall i | 0 <= i < |table| :: table[i].challengeId != challengeId
    ensures HasRow(InsertSkippingDuplicates(table, challengeId, InviteRows(ownerId, ps)), challengeId, u)
      <==> u == ownerId || u in ps
  {
    assert !HasRow(table, challengeId, u);
  }

  /** The users with a row of the new challenge are the owner and the
      invitees. */
  lemma InvitedRowsUsers(table: seq<Participant>, challengeId: string, ownerId: string, ps: seq<string>)
    requires forall i | 0 <= i < |table| :: table[i].challengeId != challengeId
    ensures var all := InsertSkippingDuplicates(table, challengeId, InviteRows(ownerId, ps));
      UserIdsOf(RowsOf(all, challengeId)) == (set p | p in ps) + {ownerId}
  {
    var all := InsertSkippingDuplicates(table, challengeId, InviteRows(ownerId, ps));
    forall u
      ensures HasRow(all, challengeId, u) <==> u == ownerId || u in ps
    {
      InvitedRow(table, challengeId, ownerId, ps, u);
    }
    UsersOfRows(all, challengeId, ownerId, ps);
  }

  /** Rows that name exactly the owner and the invitees have those users as
      their user ids. */
  lemma UsersOfRows(all: seq<Participant>, challengeId: string, ownerId: string, ps: seq<string>)
    requires forall u :: HasRow(all, challengeId, u) <==> u == ownerId || u in ps
    ensures UserIdsOf(RowsOf(all, challengeId)) == (set p | p in ps) + {ownerId}
  {
    RowsOfUsers(all, challengeId);
  }

  /** One row per distinct user among the owner and the invitees. */
  lemma InvitedRowsCount(table: seq<Participant>, challengeId: string, ownerId: string, ps: seq<string>)
    requires forall i | 0 <= i < |table| :: table[i].challengeId != challengeId
    requires UniqueParticipantKeys(table)
    ensures var all := InsertSkippingDuplicates(table, challengeId, InviteRows(ownerId, ps));
      |RowsOf(all, challengeId)| == |(set p | p in ps) + {ownerId}|
  {
    var all := InsertSkippingDuplicates(table, challengeId, InviteRows(ownerId, ps));
    InvitedRowsUsers(table, challengeId, ownerId, ps);
    RowsOfDistinctUsers(all, challengeId);
    DistinctUsersCount(RowsOf(all, challengeId));
  }

  /** The participant rows `create` stores: exactly the owner and every
      invitee, one row each (duplicates and the owner's own id in the
      invitee list collapse), the owner ACCEPTED and everybody else PENDING,
      no proof attached, and the primary key still in force. */
  lemma CreateParticipants(db: Db, ownerId: string, body: ChallengePost, freshId: string)
    requires ParticipantsReferToChallenges(db)
    requires UniqueParticipantKeys(db.participants)
    requires Create(db, ownerId, body, freshId).out.Ok?
    ensures var all := Create(db, ownerId, body, freshId).db.participants;
      var rows := RowsOf(all, freshId);
      && UniqueParticipantKeys(all)
      && (forall p | p in rows :: p.inviteStatus == StatusFor(ownerId, p.userId) && p.evidenceLink.None?)
      && UserIdsOf(rows) == (set p | p in body.participants.value) + {ownerId}
      && |rows| == |(set p | p in body.participants.value) + {ownerId}|
  {
    CreateStores(db, ownerId, body, freshId);
    NoRowsOfUnusedId(db, freshId);
    InvitedRowsStatus(db.participants, freshId, ownerId, body.participants.value);
    InvitedRowsUsers(db.participants, freshId, ownerId, body.participants.value);
    InvitedRowsCount(db.participants, freshId, ownerId, body.participants.value);
  }

  /** The users named by one challenge's rows are the users it has a row for. */
  lemma RowsOfUsers(rows: seq<Participant>, challengeId: string)
    ensures forall u :: u in UserIdsOf(RowsOf(rows, challengeId)) <==> HasRow(rows, challengeId, u)
  {
    var r := RowsOf(rows, challengeId);
    RowsOfMembers(rows, challengeId);
    forall u
      ensures u in UserIdsOf(r) <==> HasRow(rows, challengeId, u)
    {
      if u in UserIdsOf(r) {
        var p :| p in r && p.userId == u;
        var k :| 0 <= k < |rows| && rows[k] == p;
        assert IsRowOf(rows[k], challengeId, u);
      }
      if HasRow(rows, challengeId, u) {
        var k :| 0 <= k < |rows| && IsRowOf(rows[k], challengeId, u);
        assert rows[k] in rows;
        assert rows[k] in r;
      }
    }
  }

  /** A participant as `show` lists them: an initiated user's profile. */
  datatype UserMini = UserMini(
    userId: string,
    username: string,
    name: string,
    animal: Animal,
    color: Color,
    background: string)

  /** The owner as `show` lists them: every profile field may be missing. */
  datatype OwnerMini = OwnerMini(
    userId: string,
    username: Option<string>,
    name: Option<string>,
    animal: Option<Animal>,
    color: Option<Color>,
    background: Option<string>)

  /** The body `show` answers with. */
  datatype ChallengeData = ChallengeData(
    challengeId: string,
    title: string,
    description: Option<string>,
    startAt: Option<int>,
    endAt: int,
    kind: ChallengeType,
    participantCount: nat,
    owner: OwnerMini,
    accepted: seq<UserMini>,
    pending: seq<UserMini>)

  function Mini(u: User): UserMini
    requires IsUserInitiated(u)
  {
    UserMini(u.userId, u.username.value, u.name.value, u.avatarAnimal.value, u.avatarColor.value, u.avatarBg.value)
  }

  function OwnerView(u: User): OwnerMini
  {
    OwnerMini(u.userId, u.username, u.name, u.avatarAnimal, u.avatarColor, u.avatarBg)
  }

  /** Every row names an existing user. */
  predicate Joinable(users: seq<User>, rows: seq<Participant>)
  {
    forall p | p in rows :: HasUser(users, p.userId)
  }

  /** The joined user of a row. */
  function UserOf(users: seq<User>, p: Participant): User
    requires HasUser(users, p.userId)
  {
    FindUser(users, p.userId).value
  }

  /** The reference definition of one list of `show`: the initiated users of
      the rows with the given status, in row order. */
  function Listed(users: seq<User>, rows: seq<Participant>, status: InviteStatus): seq<UserMini>
    requires Joinable(users, rows)
  {
    if rows == [] then []
    else
      var prefix := rows[..|rows| - 1];
      var last := rows[|rows| - 1];
      var u := UserOf(users, last);
      Listed(users, prefix, status)
        + (if IsUserInitiated(u) && last.inviteStatus == status then [Mini(u)] else [])
  }

  /** The number of rows whose user is initiated. */
  function InitiatedCount(users: seq<User>, rows: seq<Participant>): (n: nat)
    requires Joinable(users, rows)
    ensures n <= |rows|
  {
    if rows == [] then 0
    else
      InitiatedCount(users, rows[..|rows| - 1])
        + (if IsUserInitiated(UserOf(users, rows[|rows| - 1])) then 1 else 0)
  }

  /** The `for` loop of `show`: one pass over the rows, skipping uninitiated
      users and pushing the rest onto `accepted` or `pending`. */
  method PartitionParticipants(users: seq<User>, rows: seq<Participant>) returns (accepted: seq<UserMini>, pending: seq<UserMini>)
    requires Joinable(users, rows)
    ensures accepted == Listed(users, rows, Accepted)
    ensures pending == Listed(users, rows, Pending)
  {
    accepted, pending := [], [];
    var i := 0;
    while i < |rows|
      invariant 0 <= i <= |rows|
      invariant accepted == Listed(users, rows[..i], Accepted)
      invariant pending == Listed(users, rows[..i], Pending)
    {
      assert rows[..i + 1][..i] == rows[..i];
      var u := UserOf(users, rows[i]);
      if IsUserInitiated(u) {
        if rows[i].inviteStatus == Accepted {
          accepted := accepted + [Mini(u)];
        } else if rows[i].inviteStatus == Pending {
          pending := pending + [Mini(u)];
        }
      }
      i := i + 1;
    }
    assert rows[..|rows|] == rows;
  }

  /** `show`: a missing challenge is not found; otherwise the challenge, its
      owner, its participants split by status, and the number of rows. */
  function Show(db: Db, challengeId: string): (r: Result<ChallengeData>)
    requires ParticipantsReferToUsers(db) && OwnersReferToUsers(db)
    ensures r.Err? <==> !HasChallenge(db.challenges, challengeId)
    ensures r.Err? ==> r.code == NotFound
    ensures r.Ok? ==>
      && r.value.challengeId == challengeId
      && r.value.participantCount == |RowsOf(db.participants, challengeId)|
      && |r.value.accepted| + |r.value.pending| <= r.value.participantCount
    ensures r.Ok? ==>
      var c := FindChallenge(db.challenges, challengeId).value;
      && c in db.challenges && c.challengeId == challengeId
      && r.value.title == c.title && r.value.description == c.description
      && r.value.startAt == c.startAt && r.value.endAt == c.endAt && r.value.kind == c.kind
      && HasUser(db.users, c.ownerId)
      && r.value.owner == OwnerView(FindUser(db.users, c.ownerId).value)
      && r.value.owner.userId == c.ownerId
  {
    match FindChallenge(db.challenges, challengeId)
    case None => Err(NotFound)
    case Some(c) =>
      var rows := RowsOf(db.participants, challengeId);
      RowsOfMembers(db.participants, challengeId);
      ListedCount(db.users, rows);
      Ok(ChallengeData(
        c.challengeId, c.title, c.description, c.startAt, c.endAt, c.kind,
        |rows|,
        OwnerView(FindUser(db.users, c.ownerId).value),
        Listed(db.users, rows, Accepted),
        Listed(db.users, rows, Pending)))
  }

  /** Every initiated participant lands in exactly one of the two lists, so
      together they hold as many entries as there are initiated rows. */
  lemma {:induction false} ListedCount(users: seq<User>, rows: seq<Participant>)
    requires Joinable(users, rows)
    ensures |Listed(users, rows, Accepted)| + |Listed(users, rows, Pending)| == InitiatedCount(users, rows)
  {
    if rows != [] {
      ListedCount(users, rows[..|rows| - 1]);
    }
  }

  /** A row contributes `m` to the list for `status`: its status matches and
      its user is initiated with that profile. */
  predicate ListedAs(users: seq<User>, p: Participant, status: InviteStatus, m: UserMini)
    requires HasUser(users, p.userId)
  {
    p.inviteStatus == status && IsUserInitiated(UserOf(users, p)) && Mini(UserOf(users, p)) == m
  }

  /** Membership in a list of `show`: an entry is there exactly when some
      row with that status names an initiated user with that profile. */
  lemma {:induction false} ListedMembership(users: seq<User>, rows: seq<Participant>, status: InviteStatus, m: UserMini)
    requires Joinable(users, rows)
    ensures m in Listed(users, rows, status) <==>
      exists i | 0 <= i < |rows| :: ListedAs(users, rows[i], status, m)
  {
    if rows != [] {
      var prefix := rows[..|rows| - 1];
      var last := |rows| - 1;
      ListedMembership(users, prefix, status, m);
      assert forall i | 0 <= i < |prefix| :: prefix[i] == rows[i];
      assert m in Listed(users, rows, status) <==>
        m in Listed(users, prefix, status) || ListedAs(users, rows[last], status, m);
    }
  }

  /** Under the primary key no user is both accepted and pending. */
  lemma ListsDisjoint(users: seq<User>, rows: seq<Participant>, a: UserMini, b: UserMini)
    requires Joinable(users, rows)
    requires DistinctUsers(rows)
    requires a in Listed(users, rows, Accepted) && b in Listed(users, rows, Pending)
    ensures a.userId != b.userId
  {
    ListedMembership(users, rows, Accepted, a);
    ListedMembership(users, rows, Pending, b);
    var i :| 0 <= i < |rows| && rows[i].inviteStatus == Accepted && IsUserInitiated(UserOf(users, rows[i])) && Mini(UserOf(users, rows[i])) == a;
    var j :| 0 <= j < |rows| && rows[j].inviteStatus == Pending && IsUserInitiated(UserOf(users, rows[j])) && Mini(UserOf(users, rows[j])) == b;
    assert i != j;
  }

  /** Rows appended by `createMany` point at existing users and at the
      challenge when every user the data mentions exists, and rows already
      in the table keep pointing where they did. */
  lemma InsertedRowsRefer(table: seq<Participant>, challengeId: string, data: seq<NewRow>,
                          users: seq<User>, challenges: seq<Challenge>)
    requires forall p | p in table :: HasUser(users, p.userId) && HasChallenge(challenges, p.challengeId)
    requires forall u | Mentions(data, u) :: HasUser(users, u)
    requires HasChallenge(challenges, challengeId)
    ensures forall p | p in InsertSkippingDuplicates(table, challengeId, data) ::
      HasUser(users, p.userId) && HasChallenge(challenges, p.challengeId)
  {
    var all := InsertSkippingDuplicates(table, challengeId, data);
    forall p | p in all
      ensures HasUser(users, p.userId) && HasChallenge(challenges, p.challengeId)
    {
      var k :| 0 <= k < |all| && all[k] == p;
      if k < |table| {
        assert all[..|table|][k] == p;
      } else {
        var j :| 0 <= j < |data| && data[j] == NewRow(p.userId, p.inviteStatus);
        assert Mentions(data, p.userId);
      }
    }
  }

  /** Appending a challenge keeps every id that was there and adds its own. */
  lemma HasChallengeAppend(challenges: seq<Challenge>, c: Challenge)
    ensures HasChallenge(challenges + [c], c.challengeId)
    ensures forall id | HasChallenge(challenges, id) :: HasChallenge(challenges + [c], id)
  {
    var all := challenges + [c];
    assert all[|challenges|] == c;
    forall id | HasChallenge(challenges, id)
      ensures HasChallenge(all, id)
    {
      var i :| 0 <= i < |challenges| && challenges[i].challengeId == id;
      assert all[i] == challenges[i];
    }
  }

  /** A successful `create` keeps every foreign key in force. */
  lemma CreateKeepsForeignKeys(db: Db, ownerId: string, body: ChallengePost, freshId: string)
    requires ParticipantsReferToChallenges(db) && ParticipantsReferToUsers(db) && OwnersReferToUsers(db)
    requires Create(db, ownerId, body, freshId).out.Ok?
    ensures var after := Create(db, ownerId, body, freshId).db;
      ParticipantsReferToChallenges(after) && ParticipantsReferToUsers(after) && OwnersReferToUsers(after)
  {
    var after := Create(db, ownerId, body, freshId).db;
    var data := InviteRows(ownerId, body.participants.value);
    CreateStores(db, ownerId, body, freshId);
    var c := Challenge(freshId, body.title, body.description, None, body.endAt, body.kind, ownerId);
    assert after.challenges == db.challenges + [c] && after.users == db.users;
    HasChallengeAppend(db.challenges, c);
    InsertedRowsRefer(db.participants, freshId, data, db.users, after.challenges);
    assert forall x | x in after.challenges :: x in db.challenges || x == c;
  }

  /** `show` right after `create` finds the challenge and counts the owner
      and every distinct invitee, initiated or not. */
  lemma ShowAfterCreate(db: Db, ownerId: string, body: ChallengePost, freshId: string)
    requires ParticipantsReferToChallenges(db) && ParticipantsReferToUsers(db) && OwnersReferToUsers(db)
    requires UniqueParticipantKeys(db.participants)
    requires Create(db, ownerId, body, freshId).out.Ok?
    ensures var after := Create(db, ownerId, body, freshId).db;
      && ParticipantsReferToUsers(after) && OwnersReferToUsers(after)
      && Show(after, freshId).Ok?
      && Show(after, freshId).value.participantCount == |(set p | p in body.participants.value) + {ownerId}|
  {
    var after := Create(db, ownerId, body, freshId).db;
    CreateKeepsForeignKeys(db, ownerId, body, freshId);
    CreateParticipants(db, ownerId, body, freshId);
    assert after.challenges[|after.challenges| - 1].challengeId == freshId;
  }

  /** The two lists of `show` are the reference filters over the
      challenge's rows. */
  lemma ShowLists(db: Db, challengeId: string)
    requires ParticipantsReferToUsers(db) && OwnersReferToUsers(db)
    requires HasChallenge(db.challenges, challengeId)
    ensures var rows := RowsOf(db.participants, challengeId);
      && Joinable(db.users, rows)
      && Show(db, challengeId).value.accepted == Listed(db.users, rows, Accepted)
      && Show(db, challengeId).value.pending == Listed(db.users, rows, Pending)
  {
    RowsOfMembers(db.participants, challengeId);
  }

  /** `show` lists an initiated participant under the status of their row. */
  lemma ShowListsParticipant(db: Db, challengeId: string, u: User, k: nat)
    requires ParticipantsReferToUsers(db) && OwnersReferToUsers(db) && UniqueUserIds(db.users)
    requires HasChallenge(db.challenges, challengeId)
    requires u in db.users && IsUserInitiated(u)
    requires k < |db.participants| && IsRowOf(db.participants[k], challengeId, u.userId)
    ensures db.participants[k].inviteStatus == Accepted ==> Mini(u) in Show(db, challengeId).value.accepted
    ensures db.participants[k].inviteStatus == Pending ==> Mini(u) in Show(db, challengeId).value.pending
  {
    ShowLists(db, challengeId);
    var p := db.participants[k];
    var rows := RowsOf(db.participants, challengeId);
    RowsOfMembers(db.participants, challengeId);
    assert p in db.participants;
    assert p in rows;
    var i :| 0 <= i < |rows| && rows[i] == p;
    FindUserUnique(db.users, u);
    assert UserOf(db.users, rows[i]) == u;
    ListedMembership(db.users, rows, p.inviteStatus, Mini(u));
  }

  /** In `show` right after `create`, an initiated owner is listed as
      accepted and every initiated invitee other than the owner as pending. */
  lemma ShowListsInvitees(db: Db, ownerId: string, body: ChallengePost, freshId: string, u: User)
    requires ParticipantsReferToChallenges(db) && ParticipantsReferToUsers(db) && OwnersReferToUsers(db)
    requires UniqueParticipantKeys(db.participants) && UniqueUserIds(db.users)
    requires Create(db, ownerId, body, freshId).out.Ok?
    requires u in db.users && IsUserInitiated(u)
    requires u.userId == ownerId || u.userId in body.participants.value
    ensures var after := Create(db, ownerId, body, freshId).db;
      && ParticipantsReferToUsers(after) && OwnersReferToUsers(after)
      && Show(after, freshId).Ok?
      && (u.userId == ownerId ==> Mini(u) in Show(after, freshId).value.accepted)
      && (u.userId != ownerId ==> Mini(u) in Show(after, freshId).value.pending)
  {
    var after := Create(db, ownerId, body, freshId).db;
    ShowAfterCreate(db, ownerId, body, freshId);
    CreateParticipants(db, ownerId, body, freshId);
    var rows := RowsOf(after.participants, freshId);
    assert u.userId in (set p | p in body.participants.value) + {ownerId};
    assert u.userId in UserIdsOf(rows);
    var p :| p in rows && p.userId == u.userId;
    assert p.inviteStatus == StatusFor(ownerId, u.userId);
    RowsOfMembers(after.participants, freshId);
    var k :| 0 <= k < |after.participants| && after.participants[k] == p;
    ShowListsParticipant(after, freshId, u, k);
  }
}

=== FILE: check_token.dfy ===
/** The `checkValidToken` middleware: the bearer token is taken from the
    `Authorization` header, verified, and its payload checked for shape
    before the request goes on. */
module TokenCheck {
  import opened Common

  /** The JavaScript values a verified token can decode to. */
  datatype JsValue =
    | Undefined
    | Null
    | Bool(b: bool)
    | Num(n: int)
    | Str(s: string)
    | Obj(fields: map<string, JsValue>)

  /** `value?.key`: a missing property, or any property of a non-object,
      reads as `undefined`. */
  function Prop(v: JsValue, key: string): (r: JsValue)
    ensures !v.Obj? ==> r == Undefined
    ensures v.Obj? && key !in v.fields ==> r == Undefined
  {
    if v.Obj? && key in v.fields then v.fields[key] else Undefined
  }

  /** `isValidPayload`: numeric `iat` and `exp` and a string `userId`. */
  predicate IsValidPayload(v: JsValue)
  {
    Prop(v, "iat").Num? && Prop(v, "exp").Num? && Prop(v, "userId").Str?
  }

  /** The payload the middleware hands on: issue and expiry instants and the
      user it speaks for. */
  datatype TokenPayload = TokenPayload(iat: int, exp: int, userId: string)

  function ToJs(p: TokenPayload): JsValue
  {
    Obj(map["iat" := Num(p.iat), "exp" := Num(p.exp), "userId" := Str(p.userId)])
  }

  function FromJs(v: JsValue): TokenPayload
    requires IsValidPayload(v)
  {
    TokenPayload(Prop(v, "iat").n, Prop(v, "exp").n, Prop(v, "userId").s)
  }

  /** Every typed payload passes the shape check and reads back unchanged,
      and a value passes exactly when it carries the three fields a typed
      payload would give it, whatever else it holds. */
  lemma PayloadRoundTrip(p: TokenPayload, v: JsValue)
    ensures IsValidPayload(ToJs(p)) && FromJs(ToJs(p)) == p
    ensures IsValidPayload(v) ==> forall k | k in {"iat", "exp", "userId"} :: Prop(v, k) == Prop(ToJs(FromJs(v)), k)
    ensures IsValidPayload(v) <==>
      (v.Obj? && "iat" in v.fields && "exp" in v.fields && "userId" in v.fields
       && v.fields["iat"].Num? && v.fields["exp"].Num? && v.fields["userId"].Str?)
  {
  }

  /** Strings, numbers and `null` never pass; nor does an object lacking
      any of the three fields or holding one with the wrong type. */
  lemma PayloadRejects(s: string, n: int, m: map<string, JsValue>)
    ensures !IsValidPayload(Str(s)) && !IsValidPayload(Num(n)) && !IsValidPayload(Null) && !IsValidPayload(Undefined)
    ensures !IsValidPayload(Obj(m["iat" := Str(s)]))
    ensures !IsValidPayload(Obj(m["userId" := Num(n)]))
    ensures "exp" !in m ==> !IsValidPayload(Obj(m))
  {
  }

  /** `String.prototype.split(" ")`: the pieces between single spaces; there
      is always at least one. */
  function Split(s: string): (r: seq<string>)
    ensures |r| >= 1
    ensures forall i | 0 <= i < |r| :: ' ' !in r[i]
  {
    if s == [] then [""]
    else
      var rest := Split(s[1..]);
      if s[0] == ' ' then [""] + rest
      else [[s[0]] + rest[0]] + rest[1..]
  }

  /** The pieces joined back with single spaces. */
  function Join(parts: seq<string>): string
    requires |parts| >= 1
  {
    if |parts| == 1 then parts[0] else parts[0] + " " + Join(parts[1..])
  }

  lemma {:induction false} JoinCons(c: char, parts: seq<string>)
    requires |parts| >= 1
    ensures Join([[c] + parts[0]] + parts[1..]) == [c] + Join(parts)
  {
    var ps := [[c] + parts[0]] + parts[1..];
    assert ps[1..] == parts[1..];
  }

  /** Splitting loses nothing: joining the pieces gives the header back. */
  lemma {:induction false} JoinSplit(s: string)
    ensures Join(Split(s)) == s
  {
    if s != [] {
      var rest := Split(s[1..]);
      JoinSplit(s[1..]);
      if s[0] == ' ' {
        assert ([""] + rest)[1..] == rest;
      } else {
        JoinCons(s[0], rest);
      }
      assert s == [s[0]] + s[1..];
    }
  }

  lemma {:induction false} SplitWord(w: string, t: string)
    requires ' ' !in w
    ensures Split(w) == [w]
    ensures Split(w + " " + t) == [w] + Split(t)
  {
    if w != [] {
      SplitWord(w[1..], t);
      assert (w + " " + t)[1..] == w[1..] + " " + t;
      assert [w[0]] + w[1..] == w;
    } else {
      assert ("" + " " + t)[1..] == t;
    }
  }

  /** Joining space-free pieces and splitting again gives the pieces
      back. */
  lemma {:induction false} SplitJoin(parts: seq<string>)
    requires |parts| >= 1 && forall i | 0 <= i < |parts| :: ' ' !in parts[i]
    ensures Split(Join(parts)) == parts
  {
    if |parts| == 1 {
      SplitWord(parts[0], "");
    } else {
      SplitJoin(parts[1..]);
      SplitWord(parts[0], Join(parts[1..]));
      assert parts == [parts[0]] + parts[1..];
    }
  }

  /** `bearerToken.split(" ")[1]`: absent when the header has no space. */
  function BearerToken(header: string): (r: Option<string>)
    ensures r.Some? <==> ' ' in header
  {
    var parts := Split(header);
    JoinSplit(header);
    if |parts| >= 2 then
      assert ' ' in Join(parts) by {
        assert Join(parts) == parts[0] + " " + Join(parts[1..]);
        assert Join(parts)[|parts[0]|] == ' ';
      }
      Some(parts[1])
    else
      assert Join(parts) == parts[0];
      None
  }

  /** The token of "Bearer <t>" is `t`, for any `t` without spaces. */
  lemma BearerOfScheme(scheme: string, t: string)
    requires ' ' !in scheme && ' ' !in t
    ensures BearerToken(scheme + " " + t) == Some(t)
  {
    SplitWord(scheme, t);
    SplitWord(t, "");
  }

  /** What the middleware does, in order. */
  datatype Effect = RespondUnauthorized | StorePayload(payload: JsValue) | CallNext

  /** `jwt.verify` on the header's token. `verify` stands for the signature
      check on a non-empty token string, `None` when it throws. A header
      without a second segment gives the token `undefined`, and "Bearer "
      gives the empty token; `jwt.verify` throws on both ("jwt must be
      provided"). */
  function VerifyHeader(header: string, verify: string -> Option<JsValue>): (r: Option<JsValue>)
    ensures BearerToken(header).None? ==> r.None?
    ensures BearerToken(header) == Some("") ==> r.None?
    ensures BearerToken(header).Some? && BearerToken(header).value != "" ==> r == verify(BearerToken(header).value)
  {
    match BearerToken(header)
    case None => None
    case Some(token) => if token == "" then None else verify(token)
  }

  /** `checkValidToken`. */
  function CheckValidToken(header: Option<string>, verify: string -> Option<JsValue>): (effects: seq<Effect>)
    ensures !Truthy(header) ==> effects == [RespondUnauthorized]
    ensures Truthy(header) && ' ' !in header.value ==> effects == [RespondUnauthorized]
    ensures Truthy(header) && BearerToken(header.value) == Some("") ==> effects == [RespondUnauthorized]
    ensures Truthy(header) && VerifyHeader(header.value, verify).None? ==> effects == [RespondUnauthorized]
    ensures (Truthy(header) && VerifyHeader(header.value, verify).Some?
             && !IsValidPayload(VerifyHeader(header.value, verify).value)) ==> effects == [RespondUnauthorized]
  {
    if !Truthy(header) then [RespondUnauthorized]
    else
      match VerifyHeader(header.value, verify)
      case None => [RespondUnauthorized]
      case Some(payload) =>
        if !IsValidPayload(payload) then [RespondUnauthorized]
        else [StorePayload(payload), CallNext]
  }

  function CountNext(effects: seq<Effect>): nat
  {
    if effects == [] then 0
    else CountNext(effects[1..]) + (if effects[0] == CallNext then 1 else 0)
  }

  /** The request goes on exactly once when a header is present, it holds
      a non-empty token, the token verifies and the payload has the right shape, after
      the payload is stored; otherwise it never goes on and the answer is
      UNAUTHORIZED. */
  lemma NextOnceIffAccepted(header: Option<string>, verify: string -> Option<JsValue>)
    ensures var accepted := Truthy(header) && ' ' in header.value
                            && BearerToken(header.value).value != ""
                            && verify(BearerToken(header.value).value).Some?
                            && IsValidPayload(verify(BearerToken(header.value).value).value);
      var effects := CheckValidToken(header, verify);
      && CountNext(effects) == (if accepted then 1 else 0)
      && (accepted ==> effects == [StorePayload(verify(BearerToken(header.value).value).value), CallNext])
      && (!accepted ==> RespondUnauthorized in effects)
  {
    var effects := CheckValidToken(header, verify);
    if |effects| == 2 {
      assert effects[1..] == [CallNext];
      assert effects[1..][1..] == [];
      assert CountNext(effects[1..]) == 1;
    } else {
      assert effects[1..] == [];
    }
  }
}

=== FILE: common.dfy ===
/** Shared vocabulary: optional values, the backend's error codes, handler
    outcomes and the JavaScript notions (truthiness, `String.includes`) that
    the handlers rely on. */
module Common {

  /** A nullable or possibly-undefined value. */
  datatype Option<+T> = None | Some(value: T)

  /** The error codes the handlers put in their JSON error bodies. A server
      error (`handleServerError`) answers with `UnknownError`. */
  datatype ErrorCode =
    | UnknownError
    | InvalidCredentials
    | ExistingUsername
    | ExistingAccount
    | NonExistentAccount
    | InvalidRequest
    | Unauthorized
    | NotFound

  /** What a handler answers: a success body or an error code. */
  datatype Result<+T> = Ok(value: T) | Err(code: ErrorCode)

  /** JavaScript truthiness of an optional string: `null`, `undefined` and
      the empty string are falsy. */
  predicate Truthy(s: Option<string>)
  {
    s.Some? && |s.value| > 0
  }

  /** `haystack.includes(needle)` on strings: `needle` occurs as a
      contiguous block of `haystack`. */
  predicate Contains(haystack: string, needle: string)
  {
    exists i | 0 <= i <= |haystack| - |needle| :: OccursAt(haystack, needle, i)
  }

  /** `needle` occurs in `haystack` starting at index `i`. */
  predicate OccursAt(haystack: string, needle: string, i: int)
    requires 0 <= i <= |haystack| - |needle|
  {
    haystack[i..i + |needle|] == needle
  }
}

=== FILE: ordering.dfy ===
/** The selections and orderings the listing queries ask the database for
    (`WHERE`, `ORDER BY`, `LIMIT`): an order-keeping filter, a lexicographic
    order on integer keys, and a sort that realises it. */
module Ordering {

  /** Lexicographic order on integer sequences; a prefix comes first. */
  predicate LexLe(a: seq<int>, b: seq<int>)
    decreases |a|
  {
    |a| == 0 || (|b| > 0 && (a[0] < b[0] || (a[0] == b[0] && LexLe(a[1..], b[1..]))))
  }

  lemma {:induction false} LexLeTotal(a: seq<int>, b: seq<int>)
    ensures LexLe(a, b) || LexLe(b, a)
    decreases |a|
  {
    if |a| > 0 && |b| > 0 && a[0] == b[0] {
      LexLeTotal(a[1..], b[1..]);
    }
  }

  lemma {:induction false} LexLeTransitive(a: seq<int>, b: seq<int>, c: seq<int>)
    requires LexLe(a, b) && LexLe(b, c)
    ensures LexLe(a, c)
    decreases |a|
  {
    if |a| > 0 && a[0] == b[0] && b[0] == c[0] {
      LexLeTransitive(a[1..], b[1..], c[1..]);
    }
  }

  lemma {:induction false} LexLeAntisymmetric(a: seq<int>, b: seq<int>)
    requires LexLe(a, b) && LexLe(b, a)
    ensures a == b
    decreases |a|
  {
    if |a| > 0 {
      LexLeAntisymmetric(a[1..], b[1..]);
      assert a == [a[0]] + a[1..] && b == [b[0]] + b[1..];
    }
  }

  /** A string as the sequence of its character codes; strings are
      compared code by code. */
  function Codes(s: string): (r: seq<int>)
    ensures |r| == |s|
    ensures forall i | 0 <= i < |s| :: r[i] == s[i] as int
  {
    seq(|s|, i requires 0 <= i < |s| => s[i] as int)
  }

  /** Comparing a descending count first and a name second: the key
      `[-count] + name` orders by count, larger first, and by name on ties. */
  lemma CountThenNameKey(m: int, x: seq<int>, n: int, y: seq<int>)
    ensures LexLe([-m] + x, [-n] + y) <==> m > n || (m == n && LexLe(x, y))
  {
    assert ([-m] + x)[1..] == x;
    assert ([-n] + y)[1..] == y;
  }

  /** `s` is ordered by `key`. */
  predicate SortedBy<T>(s: seq<T>, key: T -> seq<int>)
  {
    forall i, j | 0 <= i < j < |s| :: LexLe(key(s[i]), key(s[j]))
  }

  /** Inserts `x` into an ordered sequence, before the first element it does
      not come after. */
  function InsertBy<T>(x: T, s: seq<T>, key: T -> seq<int>): (r: seq<T>)
    requires SortedBy(s, key)
    ensures SortedBy(r, key)
    ensures multiset(r) == multiset(s) + multiset{x}
  {
    if s == [] then [x]
    else if LexLe(key(x), key(s[0])) then
      assert forall j | 0 < j < |s| :: LexLe(key(s[0]), key(s[j]));
      assert forall j | 0 < j < |s| :: LexLe(key(x), key(s[j])) by {
        forall j | 0 < j < |s|
          ensures LexLe(key(x), key(s[j]))
        {
          LexLeTransitive(key(x), key(s[0]), key(s[j]));
        }
      }
      assert s == [s[0]] + s[1..];
      [x] + s
    else
      var rest := InsertBy(x, s[1..], key);
      LexLeTotal(key(x), key(s[0]));
      assert s == [s[0]] + s[1..];
      assert forall j | 0 <= j < |rest| :: LexLe(key(s[0]), key(rest[j])) by {
        forall j | 0 <= j < |rest|
          ensures LexLe(key(s[0]), key(rest[j]))
        {
          assert rest[j] in multiset(rest);
          if rest[j] != x {
            assert rest[j] in multiset(s[1..]);
            var k :| 0 <= k < |s[1..]| && s[1..][k] == rest[j];
            assert s[k + 1] == rest[j];
          }
        }
      }
      [s[0]] + rest
  }

  /** Insertion sort by `key`: an ordered permutation of `s`. */
  function SortBy<T>(s: seq<T>, key: T -> seq<int>): (r: seq<T>)
    ensures SortedBy(r, key)
    ensures multiset(r) == multiset(s)
    ensures |r| == |s|
  {
    if s == [] then []
    else
      assert s == [s[0]] + s[1..];
      InsertBy(s[0], SortBy(s[1..], key), key)
  }

  /** The elements satisfying `p`, in their original order. */
  function Filter<T>(s: seq<T>, p: T -> bool): (r: seq<T>)
    ensures |r| <= |s|
    ensures forall x | x in r :: x in s && p(x)
    ensures forall x | x in s && p(x) :: x in r
    ensures multiset(r) <= multiset(s)
  {
    if s == [] then []
    else
      assert s == [s[0]] + s[1..];
      (if p(s[0]) then [s[0]] else []) + Filter(s[1..], p)
  }

  /** Selection distributes over concatenation, so it keeps the order of
      the table. */
  lemma {:induction false} FilterAppend<T>(a: seq<T>, b: seq<T>, p: T -> bool)
    ensures Filter(a + b, p) == Filter(a, p) + Filter(b, p)
  {
    if a == [] {
      assert a + b == b;
    } else {
      var head := if p(a[0]) then [a[0]] else [];
      calc {
        Filter(a + b, p);
      == { assert (a + b)[0] == a[0]; assert (a + b)[1..] == a[1..] + b; }
        head + Filter(a[1..] + b, p);
      == { FilterAppend(a[1..], b, p); }
        head + (Filter(a[1..], p) + Filter(b, p));
      ==
        (head + Filter(a[1..], p)) + Filter(b, p);
      ==
        Filter(a, p) + Filter(b, p);
      }
    }
  }

  /** Selection keeps every copy of a selected element and none of the
      others. */
  lemma {:induction false} FilterCount<T>(s: seq<T>, p: T -> bool, x: T)
    ensures multiset(Filter(s, p))[x] == if p(x) then multiset(s)[x] else 0
  {
    if s != [] {
      FilterCount(s[1..], p, x);
      assert s == [s[0]] + s[1..];
    }
  }

  /** The first `n` elements, or all of them when there are fewer. */
  function Take<T>(s: seq<T>, n: nat): (r: seq<T>)
    ensures |r| == if |s| < n then |s| else n
    ensures forall i | 0 <= i < |r| :: r[i] == s[i]
    ensures multiset(r) <= multiset(s)
  {
    if |s| <= n then s
    else
      assert s == s[..n] + s[n..];
      s[..n]
  }

  /** Nothing satisfies `p`, so nothing is selected. */
  lemma {:induction false} FilterNone<T>(s: seq<T>, p: T -> bool)
    requires forall x | x in s :: !p(x)
    ensures Filter(s, p) == []
  {
    if s != [] {
      assert s[0] in s;
      FilterNone(s[1..], p);
    }
  }
}

=== FILE: proofs.dfy ===
/** `submitProof` and `deleteProof`: writing and clearing the evidence link
    of the caller's own participant row. */
module Proofs {
  import opened Common
  import opened Store

  /** The uploaded file as the upload middleware describes it. */
  datatype Upload = Upload(path: string)

  /** The participant table with the evidence link of row `k` replaced. */
  function SetEvidence(rows: seq<Participant>, k: nat, link: Option<string>): (r: seq<Participant>)
    requires k < |rows|
    ensures |r| == |rows|
    ensures r[k] == rows[k].(evidenceLink := link)
    ensures forall i | 0 <= i < |rows| && i != k :: r[i] == rows[i]
  {
    rows[k := rows[k].(evidenceLink := link)]
  }

  /** The update by primary key `(challengeId, userId)`: `None` when no row
      has that key (the update throws). */
  function UpdateEvidence(rows: seq<Participant>, challengeId: string, userId: string,
                          link: Option<string>): (r: Option<seq<Participant>>)
    ensures r.None? <==> !HasRow(rows, challengeId, userId)
  {
    match RowIndex(rows, challengeId, userId)
    case None => None
    case Some(k) => Some(SetEvidence(rows, k, link))
  }

  /** With the primary key in force, a successful update changes the
      evidence link of the row with that key and nothing else. */
  lemma UpdateEvidenceFrame(rows: seq<Participant>, challengeId: string, userId: string,
                            link: Option<string>)
    requires UniqueParticipantKeys(rows) && HasRow(rows, challengeId, userId)
    ensures var r := UpdateEvidence(rows, challengeId, userId, link).value;
      && |r| == |rows|
      && forall i | 0 <= i < |rows| ::
           if IsRowOf(rows[i], challengeId, userId)
           then r[i] == rows[i].(evidenceLink := link)
           else r[i] == rows[i]
  {
    var k := RowIndex(rows, challengeId, userId).value;
    assert forall i | 0 <= i < |rows| && IsRowOf(rows[i], challengeId, userId) :: i == k;
  }

  /** `submitProof`: without an upload the request is refused with
      INVALID_REQUEST; without a participant row for the caller the update
      throws and the answer is UNKNOWN_ERROR; otherwise the row's link
      becomes the upload's path, which is returned. */
  function SubmitProof(db: Db, challengeId: string, userId: string, file: Option<Upload>): (s: Step<string>)
    ensures file.None? ==> s == Step(Err(InvalidRequest), db)
    ensures file.Some? && !HasRow(db.participants, challengeId, userId) ==> s == Step(Err(UnknownError), db)
    ensures s.out.Ok? <==> file.Some? && HasRow(db.participants, challengeId, userId)
    ensures s.out.Ok? ==> s.out.value == file.value.path
    ensures s.out.Ok? ==>
      s.db.participants == UpdateEvidence(db.participants, challengeId, userId, Some(file.value.path)).value
    ensures s.db.users == db.users && s.db.challenges == db.challenges
      && s.db.votes == db.votes && s.db.contacts == db.contacts
  {
    match file
    case None => Step(Err(InvalidRequest), db)
    case Some(upload) =>
      match UpdateEvidence(db.participants, challengeId, userId, Some(upload.path))
      case None => Step(Err(UnknownError), db)
      case Some(rows) => Step(Ok(upload.path), db.(participants := rows))
  }

  /** What the client receives: an answer, or nothing at all. */
  datatype Reply = Replied(out: Result<()>) | Silent

  /** `deleteProof` as the code has it: on success no response is sent, so
      the client waits until its request times out. */
  function DeleteProofAsWritten(db: Db, challengeId: string, userId: string): (r: (Reply, Db))
    ensures r.0 == Silent <==> HasRow(db.participants, challengeId, userId)
    ensures r.0 != Silent ==> r == (Replied(Err(UnknownError)), db)
  {
    match UpdateEvidence(db.participants, challengeId, userId, None)
    case None => (Replied(Err(UnknownError)), db)
    case Some(rows) => (Silent, db.(participants := rows))
  }

  /** `deleteProof` answering success once the link is cleared. */
  function DeleteProof(db: Db, challengeId: string, userId: string): (s: Step<()>)
    ensures s.out.Ok? <==> HasRow(db.participants, challengeId, userId)
    ensures s.out.Err? ==> s == Step(Err(UnknownError), db)
    ensures s.out.Ok? ==> s.db.participants == UpdateEvidence(db.participants, challengeId, userId, None).value
    ensures s.db.users == db.users && s.db.challenges == db.challenges
      && s.db.votes == db.votes && s.db.contacts == db.contacts
  {
    match UpdateEvidence(db.participants, challengeId, userId, None)
    case None => Step(Err(UnknownError), db)
    case Some(rows) => Step(Ok(()), db.(participants := rows))
  }

  /** The corrected handler writes what the original writes; only the
      reply differs, and every successful deletion of the original is
      silent. */
  lemma DeleteProofSameWrite(db: Db, challengeId: string, userId: string)
    ensures DeleteProof(db, challengeId, userId).db == DeleteProofAsWritten(db, challengeId, userId).1
    ensures DeleteProof(db, challengeId, userId).out.Ok? ==> DeleteProofAsWritten(db, challengeId, userId).0 == Silent
  {
  }

  /** After a deletion the caller's row has no evidence link, and every
      other row is as it was. */
  lemma DeleteProofClears(db: Db, challengeId: string, userId: string)
    requires UniqueParticipantKeys(db.participants) && HasRow(db.participants, challengeId, userId)
    ensures var after := DeleteProof(db, challengeId, userId).db;
      forall p | p in after.participants && IsRowOf(p, challengeId, userId) :: p.evidenceLink.None?
    ensures var after := DeleteProof(db, challengeId, userId).db.participants;
      && |after| == |db.participants|
      && forall i | 0 <= i < |after| ::
           if IsRowOf(db.participants[i], challengeId, userId)
           then after[i] == db.participants[i].(evidenceLink := None)
           else after[i] == db.participants[i]
  {
    UpdateEvidenceFrame(db.participants, challengeId, userId, None);
  }

  /** After a submission the caller's row holds exactly the uploaded path,
      and every other row is as it was. */
  lemma SubmitProofStores(db: Db, challengeId: string, userId: string, upload: Upload)
    requires UniqueParticipantKeys(db.participants) && HasRow(db.participants, challengeId, userId)
    ensures var after := SubmitProof(db, challengeId, userId, Some(upload)).db;
      forall p | p in after.participants && IsRowOf(p, challengeId, userId) ::
        p.evidenceLink == Some(upload.path)
    ensures var after := SubmitProof(db, challengeId, userId, Some(upload)).db.participants;
      && |after| == |db.participants|
      && forall i | 0 <= i < |after| ::
           if IsRowOf(db.participants[i], challengeId, userId)
           then after[i] == db.participants[i].(evidenceLink := Some(upload.path))
           else after[i] == db.participants[i]
  {
    UpdateEvidenceFrame(db.participants, challengeId, userId, Some(upload.path));
  }

  /** Both writes keep the primary key. */
  lemma UpdateEvidenceKeepsKeys(rows: seq<Participant>, challengeId: string, userId: string,
                                link: Option<string>)
    requires UniqueParticipantKeys(rows) && HasRow(rows, challengeId, userId)
    ensures UniqueParticipantKeys(UpdateEvidence(rows, challengeId, userId, link).value)
  {
    var r := UpdateEvidence(rows, challengeId, userId, link).value;
    assert forall i | 0 <= i < |rows| :: r[i].challengeId == rows[i].challengeId && r[i].userId == rows[i].userId;
  }

  /** Deleting twice is deleting once, and a deletion erases whatever a
      submission before it wrote: submit-then-delete leaves the table as a
      deletion alone would. */
  lemma DeleteAfterSubmit(db: Db, challengeId: string, userId: string, upload: Upload)
    requires UniqueParticipantKeys(db.participants) && HasRow(db.participants, challengeId, userId)
    ensures var once := DeleteProof(db, challengeId, userId).db;
      DeleteProof(once, challengeId, userId).db == once
    ensures var submitted := SubmitProof(db, challengeId, userId, Some(upload)).db;
      DeleteProof(submitted, challengeId, userId).db == DeleteProof(db, challengeId, userId).db
  {
    var rows := db.participants;
    var k := RowIndex(rows, challengeId, userId).value;
    var once := DeleteProof(db, challengeId, userId).db;
    var submitted := SubmitProof(db, challengeId, userId, Some(upload)).db;
    assert forall i | 0 <= i < |rows| ::
      once.participants[i].challengeId == rows[i].challengeId && once.participants[i].userId == rows[i].userId;
    assert forall i | 0 <= i < |rows| ::
      submitted.participants[i].challengeId == rows[i].challengeId && submitted.participants[i].userId == rows[i].userId;
    assert IsRowOf(once.participants[k], challengeId, userId);
    assert IsRowOf(submitted.participants[k], challengeId, userId);
    RowIndexUnique(rows, challengeId, userId, k);
    UpdateEvidenceKeepsKeys(rows, challengeId, userId, None);
    UpdateEvidenceKeepsKeys(rows, challengeId, userId, Some(upload.path));
    RowIndexUnique(once.participants, challengeId, userId, k);
    RowIndexUnique(submitted.participants, challengeId, userId, k);
    assert DeleteProof(once, challengeId, userId).db.participants == once.participants;
    assert DeleteProof(submitted, challengeId, userId).db.participants == once.participants;
  }
}

=== FILE: store.dfy ===
/** The abstract database the handlers act on: tables are sequences of rows
    in storage order, votes are a set of triples. The integrity predicates
    are the constraints the database schema enforces. */
module Store {
  import opened Common
  import opened Users

  datatype InviteStatus = Pending | Accepted
  datatype ChallengeType = LastToComplete | NotCompleted

  /** A row of the `Challenge` table; instants are integer milliseconds. */
  datatype Challenge = Challenge(
    challengeId: string,
    title: string,
    description: Option<string>,
    startAt: Option<int>,
    endAt: int,
    kind: ChallengeType,
    ownerId: string)

  /** A row of the `Participant` table, keyed by `(challengeId, userId)`. */
  datatype Participant = Participant(
    challengeId: string,
    userId: string,
    inviteStatus: InviteStatus,
    evidenceLink: Option<string>)

  /** A row of the `Vote` table, keyed by the whole triple. */
  datatype Vote = Vote(challengeId: string, victimId: string, accuserId: string)

  /** A directed "pers1 has interacted with pers2" edge. */
  datatype Contact = Contact(pers1: string, pers2: string)

  datatype Db = Db(
    users: seq<User>,
    challenges: seq<Challenge>,
    participants: seq<Participant>,
    votes: set<Vote>,
    contacts: seq<Contact>)

  /** A state transition: the handler's answer and the database after it. */
  datatype Step<+T> = Step(out: Result<T>, db: Db)

  /** True when the row belongs to `(challengeId, userId)`. */
  predicate IsRowOf(p: Participant, challengeId: string, userId: string)
  {
    p.challengeId == challengeId && p.userId == userId
  }

  /** The `(challengeId, userId)` primary key of `Participant`. */
  predicate UniqueParticipantKeys(rows: seq<Participant>)
  {
    forall i, j | 0 <= i < j < |rows| ::
      !IsRowOf(rows[j], rows[i].challengeId, rows[i].userId)
  }

  predicate HasRow(rows: seq<Participant>, challengeId: string, userId: string)
  {
    exists i | 0 <= i < |rows| :: IsRowOf(rows[i], challengeId, userId)
  }

  /** Position of the first row with the given key (a unique-key lookup). */
  function RowIndex(rows: seq<Participant>, challengeId: string, userId: string): (r: Option<nat>)
    ensures r.Some? <==> HasRow(rows, challengeId, userId)
    ensures r.Some? ==> r.value < |rows| && IsRowOf(rows[r.value], challengeId, userId)
    ensures r.Some? ==> forall k | 0 <= k < r.value :: !IsRowOf(rows[k], challengeId, userId)
  {
    if |rows| == 0 then None
    else if IsRowOf(rows[0], challengeId, userId) then Some(0)
    else
      assert HasRow(rows, challengeId, userId) ==> HasRow(rows[1..], challengeId, userId) by {
        if HasRow(rows, challengeId, userId) {
          var i :| 0 <= i < |rows| && IsRowOf(rows[i], challengeId, userId);
          assert IsRowOf(rows[1..][i - 1], challengeId, userId);
        }
      }
      match RowIndex(rows[1..], challengeId, userId)
      case None => None
      case Some(k) =>
        assert IsRowOf(rows[k + 1], challengeId, userId);
        assert forall j | 1 <= j < k + 1 :: rows[j] == rows[1..][j - 1];
        Some(k + 1)
  }

  /** With the primary key in force the row found is the only one. */
  lemma RowIndexUnique(rows: seq<Participant>, challengeId: string, userId: string, k: nat)
    requires UniqueParticipantKeys(rows)
    requires k < |rows| && IsRowOf(rows[k], challengeId, userId)
    ensures RowIndex(rows, challengeId, userId) == Some(k)
  {
    var r := RowIndex(rows, challengeId, userId);
    assert r.Some?;
  }

  /** The primary key of `Challenge`. */
  predicate UniqueChallengeIds(challenges: seq<Challenge>)
  {
    forall i, j | 0 <= i < j < |challenges| :: challenges[i].challengeId != challenges[j].challengeId
  }

  predicate HasChallenge(challenges: seq<Challenge>, id: string)
  {
    exists i | 0 <= i < |challenges| :: challenges[i].challengeId == id
  }

  /** `findFirst` on the `Challenge` table by id. */
  function FindChallenge(challenges: seq<Challenge>, id: string): (r: Option<Challenge>)
    ensures r.Some? <==> HasChallenge(challenges, id)
    ensures r.Some? ==> r.value in challenges && r.value.challengeId == id
  {
    if |challenges| == 0 then None
    else if challenges[0].challengeId == id then Some(challenges[0])
    else
      assert HasChallenge(challenges, id) ==> HasChallenge(challenges[1..], id) by {
        if HasChallenge(challenges, id) {
          var i :| 0 <= i < |challenges| && challenges[i].challengeId == id;
          assert challenges[1..][i - 1].challengeId == id;
        }
      }
      assert HasChallenge(challenges[1..], id) ==> HasChallenge(challenges, id) by {
        if HasChallenge(challenges[1..], id) {
          var i :| 0 <= i < |challenges[1..]| && challenges[1..][i].challengeId == id;
          assert challenges[i + 1].challengeId == id;
        }
      }
      FindChallenge(challenges[1..], id)
  }

  /** Every participant row points at an existing user: the foreign key the
      `include: { user }` join of `show` relies on. */
  predicate ParticipantsReferToUsers(db: Db)
  {
    forall p | p in db.participants :: HasUser(db.users, p.userId)
  }

  /** Every participant row points at an existing challenge. */
  predicate ParticipantsReferToChallenges(db: Db)
  {
    forall p | p in db.participants :: HasChallenge(db.challenges, p.challengeId)
  }

  /** Every challenge's owner is an existing user. */
  predicate OwnersReferToUsers(db: Db)
  {
    forall c | c in db.challenges :: HasUser(db.users, c.ownerId)
  }

  /** Every contact's target is an existing user. */
  predicate ContactsReferToUsers(db: Db)
  {
    forall e | e in db.contacts :: HasUser(db.users, e.pers2)
  }

  /** The rows of one challenge, in storage order. */
  function RowsOf(rows: seq<Participant>, challengeId: string): (r: seq<Participant>)
    ensures |r| <= |rows|
  {
    if rows == [] then []
    else
      var last := rows[|rows| - 1];
      RowsOf(rows[..|rows| - 1], challengeId) + (if last.challengeId == challengeId then [last] else [])
  }

  /** The rows selected are the table's rows of that challenge. */
  lemma {:induction false} RowsOfMembers(rows: seq<Participant>, challengeId: string)
    ensures forall p | p in RowsOf(rows, challengeId) :: p in rows && p.challengeId == challengeId
    ensures forall p | p in rows && p.challengeId == challengeId :: p in RowsOf(rows, challengeId)
  {
    if rows != [] {
      var prefix := rows[..|rows| - 1];
      RowsOfMembers(prefix, challengeId);
      assert rows == prefix + [rows[|rows| - 1]];
    }
  }

  /** No two rows name the same user. */
  predicate DistinctUsers(rows: seq<Participant>)
  {
    forall i, j | 0 <= i < j < |rows| :: rows[i].userId != rows[j].userId
  }

  /** The ids of the users the rows name. */
  function UserIdsOf(rows: seq<Participant>): set<string>
  {
    set p | p in rows :: p.userId
  }

  /** Under the primary key, one challenge's rows name each user once. */
  lemma {:induction false} RowsOfDistinctUsers(rows: seq<Participant>, challengeId: string)
    requires UniqueParticipantKeys(rows)
    ensures DistinctUsers(RowsOf(rows, challengeId))
  {
    if rows != [] {
      var prefix := rows[..|rows| - 1];
      var last := rows[|rows| - 1];
      assert UniqueParticipantKeys(prefix) by {
        forall i, j | 0 <= i < j < |prefix|
          ensures !IsRowOf(prefix[j], prefix[i].challengeId, prefix[i].userId)
        {
          assert prefix[i] == rows[i] && prefix[j] == rows[j];
        }
      }
      RowsOfDistinctUsers(prefix, challengeId);
      var r := RowsOf(rows, challengeId);
      var rp := RowsOf(prefix, challengeId);
      RowsOfMembers(prefix, challengeId);
      if last.challengeId == challengeId {
        assert r == rp + [last];
        forall i | 0 <= i < |rp|
          ensures rp[i].userId != last.userId
        {
          assert rp[i] in prefix && rp[i].challengeId == challengeId;
          var k :| 0 <= k < |prefix| && prefix[k] == rp[i];
          assert !IsRowOf(rows[|rows| - 1], rows[k].challengeId, rows[k].userId);
        }
      } else {
        assert r == rp;
      }
    }
  }

  /** A list of rows naming each user once has as many rows as users. */
  lemma {:induction false} DistinctUsersCount(rows: seq<Participant>)
    requires DistinctUsers(rows)
    ensures |UserIdsOf(rows)| == |rows|
  {
    if rows != [] {
      var prefix := rows[..|rows| - 1];
      var last := rows[|rows| - 1];
      assert rows == prefix + [last];
      DistinctUsersCount(prefix);
      assert UserIdsOf(rows) == UserIdsOf(prefix) + {last.userId};
      assert last.userId !in UserIdsOf(prefix);
    }
  }
}

=== FILE: user_queries.dfy ===
/** The user queries: `createUser` and its mapping of unique-constraint
    violations to error codes, the `getUser` lookup with its guard, and
    `patchUser`. */
module UserQueries {
  import opened Common
  import opened Users
  import opened Store

  /** The `target` the database reports for a unique-constraint violation:
      the list of offending columns, or the name of the violated index.
      `includes` is list membership on the first and substring search on
      the second. */
  datatype ConflictTarget = Columns(names: seq<string>) | IndexName(index: string)

  predicate Includes(t: ConflictTarget, word: string)
  {
    match t
    case Columns(names) => word in names
    case IndexName(index) => Contains(index, word)
  }

  /** The error `createUser` raises for a violation: "email" is looked for
      before "username". */
  function CreateConflictCode(t: ConflictTarget): (code: ErrorCode)
    ensures code == ExistingAccount <==> Includes(t, "email")
    ensures code == ExistingUsername <==> !Includes(t, "email") && Includes(t, "username")
    ensures code == UnknownError <==> !Includes(t, "email") && !Includes(t, "username")
  {
    if Includes(t, "email") then ExistingAccount
    else if Includes(t, "username") then ExistingUsername
    else UnknownError
  }

  /** The error `patchUser` raises for a failed update. */
  function PatchConflictCode(t: ConflictTarget): (code: ErrorCode)
    ensures code == ExistingUsername <==> Includes(t, "username")
    ensures code == UnknownError <==> !Includes(t, "username")
  {
    if Includes(t, "username") then ExistingUsername else UnknownError
  }

  /** A target naming both columns is classified by the email; index names
      are classified by the column names they contain. */
  lemma ConflictExamples()
    ensures CreateConflictCode(Columns(["username", "email"])) == ExistingAccount
    ensures CreateConflictCode(IndexName("User_email_key")) == ExistingAccount
    ensures CreateConflictCode(IndexName("User_username_key")) == ExistingUsername
    ensures CreateConflictCode(Columns(["userId"])) == UnknownError
    ensures PatchConflictCode(Columns(["email"])) == UnknownError
  {
    assert OccursAt("User_email_key", "email", 5);
    assert OccursAt("User_username_key", "username", 5);
    assert !Contains("User_username_key", "email") by {
      forall i | 0 <= i <= |"User_username_key"| - |"email"|
        ensures !OccursAt("User_username_key", "email", i)
      {
        assert "User_username_key"[i] != 'e' || "User_username_key"[i + 1] != 'm';
      }
    }
  }

  /** The unique `email` column. */
  predicate UniqueEmails(users: seq<User>)
  {
    forall i, j | 0 <= i < j < |users| :: users[i].email != users[j].email
  }

  /** The unique `username` column; nulls never clash. */
  predicate UniqueUsernames(users: seq<User>)
  {
    forall i, j | 0 <= i < j < |users| :: users[i].username.None? || users[i].username != users[j].username
  }

  /** All three unique keys of the `User` table. */
  predicate UserKeys(users: seq<User>)
  {
    UniqueUserIds(users) && UniqueEmails(users) && UniqueUsernames(users)
  }

  predicate EmailTaken(users: seq<User>, email: string)
  {
    exists i | 0 <= i < |users| :: users[i].email == email
  }

  predicate UsernameTaken(users: seq<User>, username: Option<string>)
  {
    username.Some? && exists i | 0 <= i < |users| :: users[i].username == username
  }

  /** The data `createUser` receives. */
  datatype NewUser = NewUser(email: string, name: Option<string>, username: Option<string>)

  /** The columns an insert would violate, in the order the table declares
      them. */
  function Violations(users: seq<User>, data: NewUser, freshId: string): (cols: seq<string>)
    ensures "email" in cols <==> EmailTaken(users, data.email)
    ensures "username" in cols <==> UsernameTaken(users, data.username)
    ensures "userId" in cols <==> HasUser(users, freshId)
    ensures cols == [] <==> !EmailTaken(users, data.email) && !UsernameTaken(users, data.username) && !HasUser(users, freshId)
  {
    (if EmailTaken(users, data.email) then ["email"] else [])
    + (if UsernameTaken(users, data.username) then ["username"] else [])
    + (if HasUser(users, freshId) then ["userId"] else [])
  }

  /** `createUser`: inserts a user with no avatar and the default settings,
      or, when a unique key would be violated, maps the violation to an
      error and writes nothing. */
  function CreateUser(db: Db, data: NewUser, freshId: string, defaults: Settings): (s: Step<User>)
    ensures s.out.Ok? <==> Violations(db.users, data, freshId) == []
    ensures s.out.Err? ==> s.db == db && s.out.code == CreateConflictCode(Columns(Violations(db.users, data, freshId)))
    ensures s.out.Ok? ==> s.db == db.(users := db.users + [s.out.value])
    ensures s.out.Ok? ==> var u := s.out.value;
      u.userId == freshId && u.email == data.email && u.username == data.username && u.name == data.name
      && u.avatarAnimal.None? && u.avatarColor.None? && u.avatarBg.None? && u.settings == defaults
  {
    var cols := Violations(db.users, data, freshId);
    if cols != [] then Step(Err(CreateConflictCode(Columns(cols))), db)
    else
      var u := User(freshId, data.email, data.username, data.name, None, None, None, defaults);
      Step(Ok(u), db.(users := db.users + [u]))
  }

  /** An email already registered is reported as an existing account, and
      a free email with a taken username as an existing username. */
  lemma CreateUserErrors(db: Db, data: NewUser, freshId: string, defaults: Settings)
    ensures EmailTaken(db.users, data.email) ==>
      CreateUser(db, data, freshId, defaults).out == Err(ExistingAccount)
    ensures !EmailTaken(db.users, data.email) && UsernameTaken(db.users, data.username) ==>
      CreateUser(db, data, freshId, defaults).out == Err(ExistingUsername)
    ensures !EmailTaken(db.users, data.email) && !UsernameTaken(db.users, data.username) && HasUser(db.users, freshId) ==>
      CreateUser(db, data, freshId, defaults).out == Err(UnknownError)
  {
  }

  /** An insert keeps all three unique keys. */
  lemma CreateUserKeepsKeys(db: Db, data: NewUser, freshId: string, defaults: Settings)
    requires UserKeys(db.users)
    ensures UserKeys(CreateUser(db, data, freshId, defaults).db.users)
  {
    var s := CreateUser(db, data, freshId, defaults);
    if s.out.Ok? {
      var users := s.db.users;
      var n := |db.users|;
      assert forall i | 0 <= i < n :: users[i] == db.users[i];
      assert forall i | 0 <= i < n :: users[i].userId != freshId;
      assert forall i | 0 <= i < n :: users[i].email != data.email;
      assert forall i | 0 <= i < n :: users[i].username.None? || users[i].username != data.username;
    }
  }

  /** The arguments of `getUser`; `None` is an absent key. */
  datatype Lookup = Lookup(userId: Option<string>, username: Option<string>, email: Option<string>)

  /** A user satisfies the `where`: every key given equals the user's
      value; absent keys are ignored. */
  predicate Satisfies(u: User, w: Lookup)
  {
    && (w.userId.Some? ==> u.userId == w.userId.value)
    && (w.username.Some? ==> u.username == w.username)
    && (w.email.Some? ==> u.email == w.email.value)
  }

  /** `findFirst`: the first user in table order that satisfies `w`. */
  function FirstSatisfying(users: seq<User>, w: Lookup): (r: Option<User>)
    ensures r.Some? ==> r.value in users && Satisfies(r.value, w)
    ensures r.None? ==> forall u | u in users :: !Satisfies(u, w)
  {
    if users == [] then None
    else if Satisfies(users[0], w) then Some(users[0])
    else
      assert forall u | u in users :: u == users[0] || u in users[1..];
      FirstSatisfying(users[1..], w)
  }

  /** `getUser`: no lookup at all when every key is falsy; otherwise the
      first user satisfying the keys given. */
  function GetUser(users: seq<User>, w: Lookup): (r: Option<User>)
    ensures !Truthy(w.userId) && !Truthy(w.username) && !Truthy(w.email) ==> r.None?
    ensures r.Some? ==> r.value in users && Satisfies(r.value, w)
    ensures (Truthy(w.userId) || Truthy(w.username) || Truthy(w.email)) && (exists u | u in users :: Satisfies(u, w)) ==> r.Some?
  {
    if !Truthy(w.userId) && !Truthy(w.username) && !Truthy(w.email) then None
    else FirstSatisfying(users, w)
  }

  /** Looking up by id alone is the primary-key lookup, and with the unique
      email column a lookup by email finds the only user with it. */
  lemma GetUserByKey(users: seq<User>, id: string, email: string)
    requires UserKeys(users) && id != "" && email != ""
    ensures GetUser(users, Lookup(Some(id), None, None)) == FindUser(users, id)
    ensures forall u | u in users && u.email == email :: GetUser(users, Lookup(None, None, Some(email))) == Some(u)
  {
    var byId := GetUser(users, Lookup(Some(id), None, None));
    if byId.Some? {
      FindUserUnique(users, byId.value);
    }
    forall u | u in users && u.email == email
      ensures GetUser(users, Lookup(None, None, Some(email))) == Some(u)
    {
      var w := Lookup(None, None, Some(email));
      assert Satisfies(u, w);
      var v := GetUser(users, w).value;
      var a :| 0 <= a < |users| && users[a] == u;
      var b :| 0 <= b < |users| && users[b] == v;
      assert users[a].email == users[b].email;
    }
  }

  datatype Avatar = Avatar(animal: Animal, color: Color, background: string)

  /** The body of a profile update; a setting may be left out. */
  datatype UserPatch = UserPatch(
    name: string,
    username: string,
    avatar: Avatar,
    deadlineReminder: Option<bool>,
    invitations: Option<bool>)

  /** Which test guards the writing of a setting: its truthiness, as the
      code has it, or its presence, as the optional field means. */
  datatype SettingGate = WhenTruthy | WhenGiven

  /** A setting after the update. */
  function NewSetting(gate: SettingGate, current: bool, given: Option<bool>): (b: bool)
    ensures given.None? ==> b == current
    ensures given == Some(true) ==> b
  {
    match gate
    case WhenTruthy => if given == Some(true) then true else current
    case WhenGiven => if given.Some? then given.value else current
  }

  /** The user row after the update. */
  function Patched(u: User, p: UserPatch, gate: SettingGate): (v: User)
    ensures v.userId == u.userId && v.email == u.email
    ensures v.username == Some(p.username) && v.name == Some(p.name)
    ensures v.avatarAnimal == Some(p.avatar.animal) && v.avatarColor == Some(p.avatar.color)
    ensures v.avatarBg == Some(p.avatar.background)
    ensures v.settings == Settings(NewSetting(gate, u.settings.deadlineReminder, p.deadlineReminder),
                                   NewSetting(gate, u.settings.invitations, p.invitations))
  {
    u.(username := Some(p.username), name := Some(p.name),
       avatarAnimal := Some(p.avatar.animal), avatarColor := Some(p.avatar.color),
       avatarBg := Some(p.avatar.background),
       settings := Settings(NewSetting(gate, u.settings.deadlineReminder, p.deadlineReminder),
                            NewSetting(gate, u.settings.invitations, p.invitations)))
  }

  /** True when another user already holds the username. */
  predicate UsernameHeldByOther(users: seq<User>, userId: string, username: string)
  {
    exists i | 0 <= i < |users| :: users[i].userId != userId && users[i].username == Some(username)
  }

  /** `patchUser` with a choice of setting gate. The update of a missing
      user fails with a violation report that names no column. */
  function PatchUserWith(gate: SettingGate, db: Db, userId: string, p: UserPatch): (s: Step<()>)
    ensures s.out.Ok? <==> HasUser(db.users, userId) && !UsernameHeldByOther(db.users, userId, p.username)
    ensures !HasUser(db.users, userId) ==> s == Step(Err(UnknownError), db)
    ensures HasUser(db.users, userId) && UsernameHeldByOther(db.users, userId, p.username) ==>
      s == Step(Err(ExistingUsername), db)
    ensures |s.db.users| == |db.users|
    ensures s.db.challenges == db.challenges && s.db.participants == db.participants
      && s.db.votes == db.votes && s.db.contacts == db.contacts
  {
    if !HasUser(db.users, userId) then Step(Err(PatchConflictCode(Columns([]))), db)
    else if UsernameHeldByOther(db.users, userId, p.username) then
      Step(Err(PatchConflictCode(Columns(["username"]))), db)
    else
      var users := seq(|db.users|, i requires 0 <= i < |db.users| =>
        if db.users[i].userId == userId then Patched(db.users[i], p, gate) else db.users[i]);
      Step(Ok(()), db.(users := users))
  }

  /** `patchUser` as written: a setting is written only when it is `true`. */
  function PatchUser(db: Db, userId: string, p: UserPatch): Step<()>
  {
    PatchUserWith(WhenTruthy, db, userId, p)
  }

  /** `patchUser` writing every setting the body gives. */
  function PatchUserIntended(db: Db, userId: string, p: UserPatch): Step<()>
  {
    PatchUserWith(WhenGiven, db, userId, p)
  }

  /** A successful patch rewrites the caller's five profile fields, leaves
      every other user alone, and keeps the unique keys. */
  lemma PatchUserFrame(gate: SettingGate, db: Db, userId: string, p: UserPatch)
    requires UserKeys(db.users)
    requires PatchUserWith(gate, db, userId, p).out.Ok?
    ensures var after := PatchUserWith(gate, db, userId, p).db.users;
      && (forall i | 0 <= i < |db.users| && db.users[i].userId != userId :: after[i] == db.users[i])
      && (forall i | 0 <= i < |db.users| && db.users[i].userId == userId :: after[i] == Patched(db.users[i], p, gate))
      && UserKeys(after)
  {
    var after := PatchUserWith(gate, db, userId, p).db.users;
    assert forall i | 0 <= i < |db.users| :: after[i].userId == db.users[i].userId && after[i].email == db.users[i].email;
    forall i, j | 0 <= i < j < |after|
      ensures after[i].username.None? || after[i].username != after[j].username
    {
      if db.users[i].userId == userId {
        assert after[i].username == Some(p.username);
        assert db.users[j].userId != userId;
      } else if db.users[j].userId == userId {
        assert after[j].username == Some(p.username);
      }
    }
  }

  /** After a successful patch with a non-empty username, name and
      background the user is initiated. */
  lemma PatchInitiates(gate: SettingGate, db: Db, userId: string, p: UserPatch)
    requires PatchUserWith(gate, db, userId, p).out.Ok?
    requires p.username != "" && p.name != "" && p.avatar.background != ""
    ensures forall u | u in PatchUserWith(gate, db, userId, p).db.users && u.userId == userId :: IsUserInitiated(u)
  {
    var after := PatchUserWith(gate, db, userId, p).db.users;
    forall u | u in after && u.userId == userId
      ensures IsUserInitiated(u)
    {
      var i :| 0 <= i < |after| && after[i] == u;
      assert after[i] == Patched(db.users[i], p, gate);
    }
  }

  /** The intended update writes exactly what the body gives; as written,
      a `false` never reaches the row. */
  lemma SettingGates(current: bool, given: Option<bool>)
    ensures given.Some? ==> NewSetting(WhenGiven, current, given) == given.value
    ensures NewSetting(WhenTruthy, current, given) == (current || given == Some(true))
  {
  }

  /** A user with deadline reminders on who turns them off: as written the
      reminder stays on, with the intended gate it is off. */
  lemma PatchCannotClearSetting()
    ensures var u := User("u", "u@example.com", None, None, None, None, None, Settings(true, true));
      var db := Db([u], [], [], {}, []);
      var p := UserPatch("Una", "una", Avatar(Cat, Primary, "blue"), Some(false), Some(false));
      && PatchUser(db, "u", p).db.users[0].settings == Settings(true, true)
      && PatchUserIntended(db, "u", p).db.users[0].settings == Settings(false, false)
  {
    var u := User("u", "u@example.com", None, None, None, None, None, Settings(true, true));
    var db := Db([u], [], [], {}, []);
    assert db.users[0].userId == "u";
  }
}

=== FILE: user_services.dfy ===
/** The user listings: recent contacts, search, and the global and personal
    walls of shame. Participation statistics come from outside this model:
    per user as the function `stats`, and for the walls as the rows of the
    `ParticipationStats` view. */
module UserServices {
  import opened Common
  import opened Users
  import opened Store
  import opened Ordering

  /** A user's completed, failed and vetoed challenge counts. */
  datatype Stats = Stats(completed: int, failed: int, vetoed: int)

  /** One `UserList` entry. `email` is only filled in by the walls; `vetoed`
      is absent when the field read from the row does not exist. */
  datatype Entry = Entry(
    userId: string,
    username: Option<string>,
    name: Option<string>,
    avatarAnimal: Option<Animal>,
    avatarColor: Option<Color>,
    avatarBg: Option<string>,
    email: Option<string>,
    completed: int,
    failed: int,
    vetoed: Option<int>)

  /** A row of the `ParticipationStats` view: the user's columns and the
      four counts. */
  datatype StatsRow = StatsRow(user: User, completecount: int, failedcount: int,
                               vetoedcount: int, totalfailedcount: int)

  /** The entry for a user with the given statistics, as recents and search
      build it. */
  function EntryOf(u: User, s: Stats): (e: Entry)
    ensures e.userId == u.userId && e.username == u.username && e.name == u.name
    ensures e.avatarAnimal == u.avatarAnimal && e.avatarColor == u.avatarColor && e.avatarBg == u.avatarBg
    ensures e.completed == s.completed && e.failed == s.failed
    ensures e.email.None? && e.vetoed == Some(s.vetoed)
  {
    Entry(u.userId, u.username, u.name, u.avatarAnimal, u.avatarColor, u.avatarBg,
          None, s.completed, s.failed, Some(s.vetoed))
  }

  /** The caller's outgoing contact edges, in table order. */
  function OutEdges(contacts: seq<Contact>, userId: string): (r: seq<Contact>)
    ensures forall e | e in r :: e in contacts && e.pers1 == userId
    ensures forall e | e in contacts && e.pers1 == userId :: e in r
  {
    Filter(contacts, (e: Contact) => e.pers1 == userId)
  }

  /** The selection of edges keeps the table's order and multiplicity:
      it distributes over concatenation, and holds every copy of an outgoing
      edge and nothing else. */
  lemma OutEdgesSelects(a: seq<Contact>, b: seq<Contact>, userId: string, e: Contact)
    ensures OutEdges(a + b, userId) == OutEdges(a, userId) + OutEdges(b, userId)
    ensures multiset(OutEdges(a, userId))[e] == if e.pers1 == userId then multiset(a)[e] else 0
  {
    FilterAppend(a, b, (c: Contact) => c.pers1 == userId);
    FilterCount(a, (c: Contact) => c.pers1 == userId, e);
  }

  /** `getUserRecents`: UNAUTHORIZED unless exactly one user has the
      caller's id; otherwise one entry per outgoing contact edge, in order,
      describing the user at its other end. */
  function GetUserRecents(db: Db, userId: string, stats: string -> Stats): (r: Result<seq<Entry>>)
    requires ContactsReferToUsers(db)
    ensures r.Err? <==> CountId(db.users, userId) != 1
    ensures r.Err? ==> r.code == Unauthorized
    ensures r.Ok? ==> |r.value| == |OutEdges(db.contacts, userId)|
    ensures r.Ok? ==> forall i | 0 <= i < |r.value| ::
      r.value[i].userId == OutEdges(db.contacts, userId)[i].pers2
      && r.value[i].vetoed == Some(stats(r.value[i].userId).vetoed)
    ensures r.Ok? ==> forall i | 0 <= i < |r.value| ::
      exists u | u in db.users :: u.userId == r.value[i].userId && r.value[i] == EntryOf(u, stats(u.userId))
  {
    if CountId(db.users, userId) != 1 then Err(Unauthorized)
    else
      var edges := OutEdges(db.contacts, userId);
      var r := seq(|edges|, i requires 0 <= i < |edges| =>
        assert edges[i] in db.contacts;
        RecentEntry(db.users, edges[i], stats));
      assert forall i | 0 <= i < |r| :: r[i] == RecentEntry(db.users, edges[i], stats);
      Ok(r)
  }

  /** The entry for the user at the other end of an edge. */
  function RecentEntry(users: seq<User>, c: Contact, stats: string -> Stats): (e: Entry)
    requires HasUser(users, c.pers2)
    ensures e.userId == c.pers2 && e.vetoed == Some(stats(c.pers2).vetoed)
    ensures exists u | u in users :: u.userId == c.pers2 && e == EntryOf(u, stats(c.pers2))
  {
    var u := FindUser(users, c.pers2).value;
    EntryOf(u, stats(u.userId))
  }

  /** Every recent names a user the caller has an edge to and carries that
      user's profile; every edge of the caller appears among the recents. */
  lemma RecentsAreContacts(db: Db, userId: string, stats: string -> Stats)
    requires ContactsReferToUsers(db) && UniqueUserIds(db.users)
    requires GetUserRecents(db, userId, stats).Ok?
    ensures var rs := GetUserRecents(db, userId, stats).value;
      && (forall e | e in rs :: Contact(userId, e.userId) in db.contacts
            && exists u | u in db.users :: u.userId == e.userId && e.username == u.username && e.name == u.name
                 && e == EntryOf(u, stats(u.userId)))
      && (forall c | c in db.contacts && c.pers1 == userId :: exists e | e in rs :: e.userId == c.pers2)
  {
    var rs := GetUserRecents(db, userId, stats).value;
    var edges := OutEdges(db.contacts, userId);
    forall e | e in rs
      ensures Contact(userId, e.userId) in db.contacts
      ensures exists u | u in db.users :: u.userId == e.userId && e.username == u.username && e.name == u.name
                && e == EntryOf(u, stats(u.userId))
    {
      var i :| 0 <= i < |rs| && rs[i] == e;
      assert edges[i] in edges;
      assert edges[i] == Contact(userId, e.userId);
      assert edges[i] in db.contacts;
      assert rs[i] == RecentEntry(db.users, edges[i], stats);
    }
    forall c | c in db.contacts && c.pers1 == userId
      ensures exists e | e in rs :: e.userId == c.pers2
    {
      var i :| 0 <= i < |edges| && edges[i] == c;
      assert rs[i] in rs;
    }
  }

  /** The search's `not: null` conditions: every profile column present,
      empty strings included. */
  predicate ProfileNotNull(u: User)
  {
    u.username.Some? && u.name.Some? && u.avatarAnimal.Some? && u.avatarColor.Some? && u.avatarBg.Some?
  }

  /** The search condition: a complete profile whose username or name
      contains the query. */
  predicate Matches(u: User, query: string)
  {
    ProfileNotNull(u) && (Contains(u.username.value, query) || Contains(u.name.value, query))
  }

  /** The username as a sort key. Both queries that sort by it select only
      rows whose username is not null, so the empty key given to a missing
      username is never compared. */
  function UsernameKey(u: User): seq<int>
  {
    if u.username.Some? then Codes(u.username.value) else []
  }

  /** The users a search returns, ordered by username. */
  function SearchRows(users: seq<User>, query: string): (r: seq<User>)
    ensures SortedBy(r, UsernameKey)
    ensures forall u | u in r :: u in users && Matches(u, query)
    ensures forall u | u in users && Matches(u, query) :: u in r
    ensures multiset(r) == multiset(Filter(users, (u: User) => Matches(u, query)))
  {
    var found := Filter(users, (u: User) => Matches(u, query));
    var sorted := SortBy(found, UsernameKey);
    assert forall u | u in sorted :: u in found by {
      forall u | u in sorted ensures u in found {
        assert u in multiset(sorted);
      }
    }
    assert forall u | u in found :: u in sorted by {
      forall u | u in found ensures u in sorted {
        assert u in multiset(found);
      }
    }
    sorted
  }

  /** `searchUsers`: the matching users, by username, as entries. */
  function SearchUsers(users: seq<User>, query: string, stats: string -> Stats): (r: seq<Entry>)
    ensures |r| == |SearchRows(users, query)|
    ensures forall i | 0 <= i < |r| ::
      var u := SearchRows(users, query)[i]; r[i] == EntryOf(u, stats(u.userId))
  {
    var rows := SearchRows(users, query);
    var r := seq(|rows|, i requires 0 <= i < |rows| => EntryOf(rows[i], stats(rows[i].userId)));
    assert forall i | 0 <= i < |r| :: r[i] == EntryOf(rows[i], stats(rows[i].userId));
    r
  }

  /** Every search result has a complete profile and the query in its
      username or its name, results come in username order, and no matching
      user is missed. */
  lemma SearchResultsMatch(users: seq<User>, query: string, stats: string -> Stats)
    ensures var r := SearchUsers(users, query, stats);
      && (forall e | e in r :: e.username.Some? && e.name.Some? && e.avatarAnimal.Some?
            && e.avatarColor.Some? && e.avatarBg.Some?
            && (Contains(e.username.value, query) || Contains(e.name.value, query)))
      && (forall i, j | 0 <= i < j < |r| :: LexLe(Codes(r[i].username.value), Codes(r[j].username.value)))
      && (forall u | u in users && Matches(u, query) :: exists e | e in r :: e.userId == u.userId)
  {
    var r := SearchUsers(users, query, stats);
    var rows := SearchRows(users, query);
    forall e | e in r
      ensures e.username.Some? && e.name.Some? && e.avatarAnimal.Some? && e.avatarColor.Some? && e.avatarBg.Some?
      ensures Contains(e.username.value, query) || Contains(e.name.value, query)
    {
      var i :| 0 <= i < |r| && r[i] == e;
      assert rows[i] in rows;
    }
    forall i, j | 0 <= i < j < |r|
      ensures LexLe(Codes(r[i].username.value), Codes(r[j].username.value))
    {
      assert rows[i] in rows && rows[j] in rows;
      assert LexLe(UsernameKey(rows[i]), UsernameKey(rows[j]));
    }
    forall u | u in users && Matches(u, query)
      ensures exists e | e in r :: e.userId == u.userId
    {
      var i :| 0 <= i < |rows| && rows[i] == u;
      assert r[i] in r;
    }
  }

  /** At most this many rows on a wall. */
  const WallLimit: nat := 100

  /** The wall's `WHERE`: a complete profile and at least one failure;
      `scope`, when given, also restricts the user ids. */
  predicate OnWall(r: StatsRow, scope: Option<seq<string>>)
  {
    ProfileNotNull(r.user) && r.totalfailedcount > 0
    && (scope.Some? ==> r.user.userId in scope.value)
  }

  /** The wall's `ORDER BY totalfailedcount DESC, username ASC`. */
  function WallKey(r: StatsRow): seq<int>
  {
    [-r.totalfailedcount] + UsernameKey(r.user)
  }

  /** The eligible rows, in view order. */
  function Eligible(view: seq<StatsRow>, scope: Option<seq<string>>): seq<StatsRow>
  {
    Filter(view, (r: StatsRow) => OnWall(r, scope))
  }

  /** The rows a wall shows: the eligible rows in wall order, cut at the
      limit. */
  function WallRows(view: seq<StatsRow>, scope: Option<seq<string>>): (r: seq<StatsRow>)
    ensures |r| == if |Eligible(view, scope)| < WallLimit then |Eligible(view, scope)| else WallLimit
    ensures forall x | x in r :: x in view && OnWall(x, scope)
    ensures SortedBy(r, WallKey)
    ensures multiset(r) <= multiset(Eligible(view, scope))
  {
    var sorted := SortBy(Eligible(view, scope), WallKey);
    var r := Take(sorted, WallLimit);
    assert forall x | x in r :: x in sorted;
    assert forall x | x in sorted :: x in Eligible(view, scope) by {
      forall x | x in sorted ensures x in Eligible(view, scope) {
        assert x in multiset(sorted);
      }
    }
    r
  }

  /** The walls order by failures, most first, then by username. */
  lemma WallOrder(view: seq<StatsRow>, scope: Option<seq<string>>)
    ensures var r := WallRows(view, scope);
      forall i, j | 0 <= i < j < |r| ::
        r[i].totalfailedcount > r[j].totalfailedcount
        || (r[i].totalfailedcount == r[j].totalfailedcount && LexLe(UsernameKey(r[i].user), UsernameKey(r[j].user)))
  {
    var r := WallRows(view, scope);
    forall i, j | 0 <= i < j < |r|
      ensures r[i].totalfailedcount > r[j].totalfailedcount
        || (r[i].totalfailedcount == r[j].totalfailedcount && LexLe(UsernameKey(r[i].user), UsernameKey(r[j].user)))
    {
      CountThenNameKey(r[i].totalfailedcount, UsernameKey(r[i].user), r[j].totalfailedcount, UsernameKey(r[j].user));
    }
  }

  /** The ranking before the cut holds every eligible row. */
  lemma RankedHoldsEligible(view: seq<StatsRow>, scope: Option<seq<string>>, x: StatsRow)
    requires x in view && OnWall(x, scope)
    ensures x in SortBy(Eligible(view, scope), WallKey)
  {
    var eligible := Eligible(view, scope);
    assert x in eligible;
    assert x in multiset(eligible);
    assert x in multiset(SortBy(eligible, WallKey));
  }

  /** The cut keeps the top of the ranking: an eligible row left off the
      wall ranks no higher than any row on it. */
  lemma WallKeepsTop(view: seq<StatsRow>, scope: Option<seq<string>>, x: StatsRow, y: StatsRow)
    requires x in view && OnWall(x, scope)
    requires x !in WallRows(view, scope) && y in WallRows(view, scope)
    ensures LexLe(WallKey(y), WallKey(x))
  {
    var sorted := SortBy(Eligible(view, scope), WallKey);
    var r := WallRows(view, scope);
    assert r == Take(sorted, WallLimit);
    RankedHoldsEligible(view, scope, x);
    var j :| 0 <= j < |sorted| && sorted[j] == x;
    var i :| 0 <= i < |r| && r[i] == y;
    assert j >= |r|;
    assert sorted[i] == y;
  }

  /** Below the limit nothing eligible is left off the wall. */
  lemma WallCompleteBelowLimit(view: seq<StatsRow>, scope: Option<seq<string>>, x: StatsRow)
    requires |Eligible(view, scope)| <= WallLimit
    requires x in view && OnWall(x, scope)
    ensures x in WallRows(view, scope)
  {
    RankedHoldsEligible(view, scope, x);
    assert WallRows(view, scope) == SortBy(Eligible(view, scope), WallKey);
  }

  /** The entry the walls build from a view row; `vetoed` is the count read
      from the row, or absent. */
  function WallEntry(r: StatsRow, vetoed: Option<int>): (e: Entry)
    ensures e.userId == r.user.userId && e.email == Some(r.user.email)
    ensures e.username == r.user.username && e.name == r.user.name
    ensures e.avatarAnimal == r.user.avatarAnimal && e.avatarColor == r.user.avatarColor
    ensures e.avatarBg == r.user.avatarBg
    ensures e.completed == r.completecount && e.failed == r.failedcount
    ensures e.vetoed == vetoed
  {
    var u := r.user;
    Entry(u.userId, u.username, u.name, u.avatarAnimal, u.avatarColor, u.avatarBg,
          Some(u.email), r.completecount, r.failedcount, vetoed)
  }

  /** `getGlobalWall`: the wall over every user, counts taken from the
      row's lower-case columns. */
  function GetGlobalWall(view: seq<StatsRow>): (r: seq<Entry>)
    ensures |r| <= WallLimit
    ensures |r| == |WallRows(view, None)|
    ensures forall i | 0 <= i < |r| :: r[i] == WallEntry(WallRows(view, None)[i], Some(WallRows(view, None)[i].vetoedcount))
  {
    var rows := WallRows(view, None);
    seq(|rows|, i requires 0 <= i < |rows| => WallEntry(rows[i], Some(rows[i].vetoedcount)))
  }

  /** The ids at the other end of the caller's contact edges. */
  function RecentIds(contacts: seq<Contact>, userId: string): (r: seq<string>)
    ensures |r| == |OutEdges(contacts, userId)|
    ensures forall i | 0 <= i < |r| :: r[i] == OutEdges(contacts, userId)[i].pers2
    ensures forall id | id in r :: Contact(userId, id) in contacts
    ensures forall c | c in contacts && c.pers1 == userId :: c.pers2 in r
  {
    var edges := OutEdges(contacts, userId);
    var r := seq(|edges|, i requires 0 <= i < |edges| => edges[i].pers2);
    assert forall c | c in edges :: c.pers2 in r by {
      forall c | c in edges ensures c.pers2 in r {
        var i :| 0 <= i < |edges| && edges[i] == c;
        assert r[i] == c.pers2;
      }
    }
    r
  }

  /** `getUserWall` with a choice of how `vetoed` is read: `readVetoed` is
      false for the code as written, whose `r.vetoedCount` names no column
      of the view. */
  function UserWallWith(contacts: seq<Contact>, userId: string, view: seq<StatsRow>, readVetoed: bool): (r: seq<Entry>)
    ensures |r| <= WallLimit
    ensures |OutEdges(contacts, userId)| == 0 ==> r == []
    ensures forall e | e in r :: Contact(userId, e.userId) in contacts
  {
    var ids := RecentIds(contacts, userId);
    if |ids| == 0 then []
    else
      var rows := WallRows(view, Some(ids));
      var r := seq(|rows|, i requires 0 <= i < |rows| =>
        WallEntry(rows[i], if readVetoed then Some(rows[i].vetoedcount) else None));
      assert forall i | 0 <= i < |r| :: r[i].userId == rows[i].user.userId && rows[i] in rows;
      r
  }

  /** `getUserWall` as written: every entry lacks its vetoed count. */
  function GetUserWall(contacts: seq<Contact>, userId: string, view: seq<StatsRow>): seq<Entry>
  {
    UserWallWith(contacts, userId, view, false)
  }

  /** `getUserWall` reading the `vetoedcount` column as the global wall
      does. */
  function GetUserWallIntended(contacts: seq<Contact>, userId: string, view: seq<StatsRow>): seq<Entry>
  {
    UserWallWith(contacts, userId, view, true)
  }

  /** A wall scoped to no one is empty. */
  lemma EmptyScopeWall(view: seq<StatsRow>, ids: seq<string>)
    requires |ids| == 0
    ensures WallRows(view, Some(ids)) == []
  {
    FilterNone(view, (x: StatsRow) => OnWall(x, Some(ids)));
  }

  /** The intended personal wall shows, row for row, the wall scoped to
      the caller's contacts, with each row's vetoed count. */
  lemma UserWallRows(contacts: seq<Contact>, userId: string, view: seq<StatsRow>)
    ensures var r := GetUserWallIntended(contacts, userId, view);
      var rows := WallRows(view, Some(RecentIds(contacts, userId)));
      |r| == |rows| && forall i | 0 <= i < |r| :: r[i] == WallEntry(rows[i], Some(rows[i].vetoedcount))
  {
    var ids := RecentIds(contacts, userId);
    if |ids| == 0 {
      EmptyScopeWall(view, ids);
    }
  }

  /** The personal wall is the global wall's selection restricted to the
      caller's contacts; the empty-contacts shortcut returns what the scoped
      query would return anyway. */
  lemma UserWallScoped(contacts: seq<Contact>, userId: string, view: seq<StatsRow>)
    ensures var r := GetUserWallIntended(contacts, userId, view);
      var rows := WallRows(view, Some(RecentIds(contacts, userId)));
      |r| == |rows| && forall i | 0 <= i < |r| :: r[i] == WallEntry(rows[i], Some(rows[i].vetoedcount))
    ensures forall e | e in GetUserWallIntended(contacts, userId, view) ::
      exists x | x in view :: x.user.userId == e.userId && OnWall(x, None)
  {
    var rows := WallRows(view, Some(RecentIds(contacts, userId)));
    var r := GetUserWallIntended(contacts, userId, view);
    UserWallRows(contacts, userId, view);
    forall e | e in r
      ensures exists x | x in view :: x.user.userId == e.userId && OnWall(x, None)
    {
      var i :| 0 <= i < |r| && r[i] == e;
      assert rows[i] in rows;
      assert rows[i] in view && OnWall(rows[i], None);
    }
  }

  /** The two personal walls list the same users with the same counts; the
      one as written never carries a vetoed count, the intended one always
      does. */
  lemma UserWallVetoedLost(contacts: seq<Contact>, userId: string, view: seq<StatsRow>)
    ensures var a := GetUserWall(contacts, userId, view);
      var b := GetUserWallIntended(contacts, userId, view);
      && |a| == |b|
      && (forall i | 0 <= i < |a| :: a[i] == b[i].(vetoed := None))
      && (forall e | e in a :: e.vetoed.None?)
      && (forall e | e in b :: e.vetoed.Some?)
  {
  }

  /** A view of one row that belongs on the wall is its own wall. */
  lemma SingleRowWall(x: StatsRow, scope: Option<seq<string>>)
    requires OnWall(x, scope)
    ensures WallRows([x], scope) == [x]
  {
    var e := Eligible([x], scope);
    assert x in e;
    var r := WallRows([x], scope);
    assert r[0] in r;
  }

  /** A caller with one contact on the wall: as written the entry lacks
      the vetoed count the view holds. */
  lemma UserWallVetoedExample()
    ensures var u := User("v", "v@example.com", Some("vic"), Some("Vic"), Some(Cat), Some(Primary), Some("red"), Settings(true, true));
      var view := [StatsRow(u, 0, 1, 2, 1)];
      && GetUserWall([Contact("me", "v")], "me", view) == [WallEntry(view[0], None)]
      && GetUserWallIntended([Contact("me", "v")], "me", view) == [WallEntry(view[0], Some(2))]
  {
    var u := User("v", "v@example.com", Some("vic"), Some("Vic"), Some(Cat), Some(Primary), Some("red"), Settings(true, true));
    var x := StatsRow(u, 0, 1, 2, 1);
    var contacts := [Contact("me", "v")];
    var edges := OutEdges(contacts, "me");
    assert contacts[0] in edges;
    assert |edges| <= 1;
    assert edges == contacts;
    var ids := RecentIds(contacts, "me");
    assert ids == ["v"];
    SingleRowWall(x, Some(ids));
  }
}

=== FILE: users.dfy ===
/** The user record and the "initiated user" predicate. */
module Users {
  import opened Common

  datatype Animal = Cat | Dog | Rabbit
  datatype Color = Primary | Secondary | Tertiary

  /** The two notification preferences (`cfg_deadline_reminder`,
      `cfg_invites_notif`). */
  datatype Settings = Settings(deadlineReminder: bool, invitations: bool)

  /** A row of the `User` table. Nullable columns are `Option`s. */
  datatype User = User(
    userId: string,
    email: string,
    username: Option<string>,
    name: Option<string>,
    avatarAnimal: Option<Animal>,
    avatarColor: Option<Color>,
    avatarBg: Option<string>,
    settings: Settings)

  /** The five profile fields `isUserInitiated` looks at. */
  datatype ProfileField = Username | Name | AvatarAnimal | AvatarColor | AvatarBg

  const AllProfileFields: set<ProfileField> := {Username, Name, AvatarAnimal, AvatarColor, AvatarBg}

  /** JavaScript truthiness of one profile field. The enum columns hold
      non-empty names, so they are truthy exactly when present. */
  predicate FieldPresent(u: User, f: ProfileField)
  {
    match f
    case Username => Truthy(u.username)
    case Name => Truthy(u.name)
    case AvatarAnimal => u.avatarAnimal.Some?
    case AvatarColor => u.avatarColor.Some?
    case AvatarBg => Truthy(u.avatarBg)
  }

  /** `isUserInitiated`: every one of the five fields is truthy. */
  predicate IsUserInitiated(u: User)
  {
    Truthy(u.username) && Truthy(u.name) && u.avatarAnimal.Some?
    && u.avatarColor.Some? && Truthy(u.avatarBg)
  }

  /** The profile fields that are falsy. */
  function MissingFields(u: User): (missing: set<ProfileField>)
    ensures missing <= AllProfileFields
  {
    set f | f in AllProfileFields && !FieldPresent(u, f)
  }

  /** A user is initiated exactly when no profile field is missing. */
  lemma InitiatedIffNothingMissing(u: User)
    ensures IsUserInitiated(u) <==> MissingFields(u) == {}
  {
    if !IsUserInitiated(u) {
      if !Truthy(u.username) { assert Username in MissingFields(u); }
      else if !Truthy(u.name) { assert Name in MissingFields(u); }
      else if u.avatarAnimal.None? { assert AvatarAnimal in MissingFields(u); }
      else if u.avatarColor.None? { assert AvatarColor in MissingFields(u); }
      else { assert AvatarBg in MissingFields(u); }
    }
  }

  /** Blanks one profile field (sets it to null). */
  function ClearField(u: User, f: ProfileField): (v: User)
    ensures !FieldPresent(v, f)
    ensures forall g :: g != f ==> FieldPresent(v, g) == FieldPresent(u, g)
  {
    match f
    case Username => u.(username := None)
    case Name => u.(name := None)
    case AvatarAnimal => u.(avatarAnimal := None)
    case AvatarColor => u.(avatarColor := None)
    case AvatarBg => u.(avatarBg := None)
  }

  /** One absent field makes the user uninitiated, whatever the others are;
      an empty username or name counts as absent. */
  lemma OneMissingFieldSuffices(u: User, f: ProfileField)
    ensures !IsUserInitiated(ClearField(u, f))
    ensures u.username == Some("") ==> !IsUserInitiated(u)
    ensures u.name == Some("") ==> !IsUserInitiated(u)
  {
    var v := ClearField(u, f);
    assert !FieldPresent(v, f);
  }

  /** Filling in fields never turns an initiated user into an uninitiated
      one. */
  lemma InitiatedMonotone(u: User, v: User)
    requires forall f :: FieldPresent(u, f) ==> FieldPresent(v, f)
    ensures IsUserInitiated(u) ==> IsUserInitiated(v)
  {
    if IsUserInitiated(u) {
      assert FieldPresent(u, Username) && FieldPresent(u, Name) && FieldPresent(u, AvatarAnimal);
      assert FieldPresent(u, AvatarColor) && FieldPresent(u, AvatarBg);
    }
  }

  /** True when no two users share an id. */
  predicate UniqueUserIds(users: seq<User>)
  {
    forall i, j | 0 <= i < j < |users| :: users[i].userId != users[j].userId
  }

  /** True when some user has this id. */
  predicate HasUser(users: seq<User>, id: string)
  {
    exists i | 0 <= i < |users| :: users[i].userId == id
  }

  /** The first user with this id, as `findFirst` by primary key. */
  function FindUser(users: seq<User>, id: string): (r: Option<User>)
    ensures r.Some? <==> HasUser(users, id)
    ensures r.Some? ==> r.value in users && r.value.userId == id
  {
    if |users| == 0 then None
    else if users[0].userId == id then Some(users[0])
    else
      var r := FindUser(users[1..], id);
      assert HasUser(users, id) ==> HasUser(users[1..], id) by {
        if HasUser(users, id) {
          var i :| 0 <= i < |users| && users[i].userId == id;
          assert users[1..][i - 1].userId == id;
        }
      }
      assert HasUser(users[1..], id) ==> HasUser(users, id) by {
        if HasUser(users[1..], id) {
          var i :| 0 <= i < |users[1..]| && users[1..][i].userId == id;
          assert users[i + 1].userId == id;
        }
      }
      r
  }

  /** Under the primary key, looking a user up by id finds that user. */
  lemma FindUserUnique(users: seq<User>, u: User)
    requires UniqueUserIds(users) && u in users
    ensures FindUser(users, u.userId) == Some(u)
  {
    var w := FindUser(users, u.userId).value;
    var a :| 0 <= a < |users| && users[a] == u;
    var b :| 0 <= b < |users| && users[b] == w;
    assert users[a].userId == users[b].userId;
  }

  /** `prisma.user.count({ where: { userId: a } })`. */
  function CountId(users: seq<User>, a: string): nat
  {
    if users == [] then 0
    else CountId(users[1..], a) + (if users[0].userId == a then 1 else 0)
  }

  /** Under the primary key an id is held by at most one user, and by one
      exactly when it exists. */
  lemma {:induction false} CountIdUnique(users: seq<User>, a: string)
    requires UniqueUserIds(users)
    ensures CountId(users, a) == (if HasUser(users, a) then 1 else 0)
  {
    if users != [] {
      var tail := users[1..];
      assert UniqueUserIds(tail) by {
        forall i, j | 0 <= i < j < |tail|
          ensures tail[i].userId != tail[j].userId
        {
          assert tail[i] == users[i + 1] && tail[j] == users[j + 1];
        }
      }
      CountIdUnique(tail, a);
      assert HasUser(users, a) <==> users[0].userId == a || HasUser(tail, a) by {
        if HasUser(users, a) && users[0].userId != a {
          var i :| 0 <= i < |users| && users[i].userId == a;
          assert tail[i - 1].userId == a;
        }
        if HasUser(tail, a) {
          var i :| 0 <= i < |tail| && tail[i].userId == a;
          assert users[i + 1].userId == a;
        }
      }
    }
  }
}

=== FILE: votes.dfy ===
/** `submitVote`: an ordered chain of validation checks, then an idempotent
    insert into the set of `(challenge, victim, accuser)` votes. */
module Votes {
  import opened Common
  import opened Users
  import opened Store
  import opened ChallengeTime

  /** The validations that can refuse a vote, in the order they run; each one
      answers INVALID_REQUEST with its own message. */
  datatype Rejection = Malformed | SelfVote | UnknownUsers | NotOver
  {
    function Message(): string
    {
      match this
      case Malformed => "Request body is malformed."
      case SelfVote => "Cannot vote for yourself."
      case UnknownUsers => "Invalid userIds."
      case NotOver => "Challenge is not over."
    }
  }

  /** Which end-of-challenge test guards voting: the predicate as the code
      has it (`now < endAt`) or as its name means (`endAt <= now`). */
  datatype EndGate = AsWritten | Intended

  predicate GateOpen(gate: EndGate, now: int, endAt: int)
  {
    match gate
    case AsWritten => IsChallengeOver(now, endAt)
    case Intended => HasEnded(now, endAt)
  }

  /** `prisma.user.count` of the users whose id is `a` or `b`. */
  function CountEither(users: seq<User>, a: string, b: string): nat
  {
    if users == [] then 0
    else CountEither(users[1..], a, b) + (if users[0].userId == a || users[0].userId == b then 1 else 0)
  }

  lemma {:induction false} CountEitherSplit(users: seq<User>, a: string, b: string)
    requires a != b
    ensures CountEither(users, a, b) == CountId(users, a) + CountId(users, b)
  {
    if users != [] {
      CountEitherSplit(users[1..], a, b);
    }
  }

  /** The existence check of `submitVote`: for two distinct ids, the count
      is 2 exactly when both users exist. */
  lemma BothExistIffCountTwo(users: seq<User>, a: string, b: string)
    requires UniqueUserIds(users) && a != b
    ensures CountEither(users, a, b) == 2 <==> HasUser(users, a) && HasUser(users, b)
  {
    CountEitherSplit(users, a, b);
    CountIdUnique(users, a);
    CountIdUnique(users, b);
  }

  /** The validation chain: the first failing check, or `None`. */
  function Validate(gate: EndGate, db: Db, now: int, challengeId: Option<string>,
                    accuserId: Option<string>, victimId: Option<string>): (r: Option<Rejection>)
    ensures r == Some(Malformed) <==> !Truthy(challengeId) || !Truthy(accuserId) || !Truthy(victimId)
    ensures r == Some(SelfVote) <==>
      Truthy(challengeId) && Truthy(accuserId) && Truthy(victimId) && accuserId == victimId
  {
    if !Truthy(challengeId) || !Truthy(accuserId) || !Truthy(victimId) then Some(Malformed)
    else if accuserId.value == victimId.value then Some(SelfVote)
    else if CountEither(db.users, accuserId.value, victimId.value) != 2 then Some(UnknownUsers)
    else
      match FindChallenge(db.challenges, challengeId.value)
      case None => Some(NotOver)
      case Some(c) => if !GateOpen(gate, now, c.endAt) then Some(NotOver) else None
  }

  /** Independent statement of when a vote is admitted: all three ids given,
      two different users that both exist, and a challenge whose end gate is
      open. */
  predicate Admissible(gate: EndGate, db: Db, now: int, challengeId: Option<string>,
                       accuserId: Option<string>, victimId: Option<string>)
  {
    && Truthy(challengeId) && Truthy(accuserId) && Truthy(victimId)
    && accuserId != victimId
    && HasUser(db.users, accuserId.value) && HasUser(db.users, victimId.value)
    && exists i | 0 <= i < |db.challenges| ::
         db.challenges[i].challengeId == challengeId.value
         && GateOpen(gate, now, db.challenges[i].endAt)
  }

  /** The validations in their order: with the primary key in force, the chain
      refuses for unknown users only after the first two checks pass, for a
      closed challenge only after all three pass, and admits exactly the
      admissible votes. */
  lemma ValidateOrder(gate: EndGate, db: Db, now: int, c: Option<string>, a: Option<string>, v: Option<string>)
    requires UniqueUserIds(db.users) && UniqueChallengeIds(db.challenges)
    ensures var r := Validate(gate, db, now, c, a, v);
      && (r == Some(UnknownUsers) <==>
            Truthy(c) && Truthy(a) && Truthy(v) && a != v
            && !(HasUser(db.users, a.value) && HasUser(db.users, v.value)))
      && (r == Some(NotOver) <==>
            Truthy(c) && Truthy(a) && Truthy(v) && a != v
            && HasUser(db.users, a.value) && HasUser(db.users, v.value)
            && !Admissible(gate, db, now, c, a, v))
      && (r.None? <==> Admissible(gate, db, now, c, a, v))
  {
    if Truthy(c) && Truthy(a) && Truthy(v) && a != v {
      BothExistIffCountTwo(db.users, a.value, v.value);
      var found := FindChallenge(db.challenges, c.value);
      if found.Some? {
        var k :| 0 <= k < |db.challenges| && db.challenges[k] == found.value;
        assert forall i | 0 <= i < |db.challenges| && db.challenges[i].challengeId == c.value
          :: i == k;
      }
    }
  }

  /** `submitVote` with the given end gate: a refused vote answers
      INVALID_REQUEST and writes nothing; an admitted vote that is already
      stored answers success and writes nothing; otherwise exactly that
      vote is added. */
  function SubmitVoteWith(gate: EndGate, db: Db, now: int, challengeId: Option<string>,
                          accuserId: Option<string>, victimId: Option<string>): (s: Step<()>)
    ensures s.out.Err? ==> s.out.code == InvalidRequest && s.db == db
    ensures s.out.Ok? <==> Validate(gate, db, now, challengeId, accuserId, victimId).None?
    ensures s.out.Ok? ==>
      s.db == db.(votes := db.votes + {Vote(challengeId.value, victimId.value, accuserId.value)})
  {
    if Validate(gate, db, now, challengeId, accuserId, victimId).Some? then
      Step(Err(InvalidRequest), db)
    else
      var vote := Vote(challengeId.value, victimId.value, accuserId.value);
      if vote in db.votes then Step(Ok(()), db)
      else Step(Ok(()), db.(votes := db.votes + {vote}))
  }

  /** `submitVote` as the code has it, gated by `isChallengeOver`. */
  function SubmitVote(db: Db, now: int, challengeId: Option<string>,
                      accuserId: Option<string>, victimId: Option<string>): Step<()>
  {
    SubmitVoteWith(AsWritten, db, now, challengeId, accuserId, victimId)
  }

  /** `submitVote` with the gate its message promises: votes only once the
      challenge has ended. */
  function SubmitVoteIntended(db: Db, now: int, challengeId: Option<string>,
                              accuserId: Option<string>, victimId: Option<string>): Step<()>
  {
    SubmitVoteWith(Intended, db, now, challengeId, accuserId, victimId)
  }

  /** Re-submitting a vote changes nothing: the second call succeeds too and
      leaves the database as the first left it. */
  lemma SubmitVoteIdempotent(gate: EndGate, db: Db, now: int, c: Option<string>, a: Option<string>, v: Option<string>)
    ensures var once := SubmitVoteWith(gate, db, now, c, a, v);
      var twice := SubmitVoteWith(gate, once.db, now, c, a, v);
      twice.out == once.out && twice.db == once.db
  {
    var once := SubmitVoteWith(gate, db, now, c, a, v);
    assert once.db.users == db.users && once.db.challenges == db.challenges;
    assert Validate(gate, once.db, now, c, a, v) == Validate(gate, db, now, c, a, v);
  }

  /** After a successful call the vote is stored, nothing was removed and
      at most one vote was added. */
  lemma SubmitVoteGrowsByAtMostOne(gate: EndGate, db: Db, now: int, c: Option<string>, a: Option<string>, v: Option<string>)
    requires SubmitVoteWith(gate, db, now, c, a, v).out.Ok?
    ensures var after := SubmitVoteWith(gate, db, now, c, a, v).db;
      && Vote(c.value, v.value, a.value) in after.votes
      && db.votes <= after.votes
      && |after.votes| <= |db.votes| + 1
  {
  }

  /** As written, a vote is admitted only while the challenge is still
      running: some challenge with that id ends strictly after `now`. With
      the intended gate, only once it has ended. */
  lemma VoteWindow(db: Db, now: int, c: Option<string>, a: Option<string>, v: Option<string>)
    ensures SubmitVote(db, now, c, a, v).out.Ok? ==>
      exists i | 0 <= i < |db.challenges| :: db.challenges[i].challengeId == c.value && now < db.challenges[i].endAt
    ensures SubmitVoteIntended(db, now, c, a, v).out.Ok? ==>
      exists i | 0 <= i < |db.challenges| :: db.challenges[i].challengeId == c.value && db.challenges[i].endAt <= now
  {
    if SubmitVote(db, now, c, a, v).out.Ok? {
      var ch := FindChallenge(db.challenges, c.value).value;
      var k :| 0 <= k < |db.challenges| && db.challenges[k] == ch;
      assert db.challenges[k].challengeId == c.value && now < db.challenges[k].endAt;
    }
    if SubmitVoteIntended(db, now, c, a, v).out.Ok? {
      var ch := FindChallenge(db.challenges, c.value).value;
      var k :| 0 <= k < |db.challenges| && db.challenges[k] == ch;
      assert db.challenges[k].challengeId == c.value && db.challenges[k].endAt <= now;
    }
  }

  /** The database of the counterexample: two users and one challenge that
      ended at instant 1000. */
  function EndedChallengeDb(): Db
  {
    var s := Settings(false, false);
    Db([User("a", "a@example.com", None, None, None, None, None, s),
        User("b", "b@example.com", None, None, None, None, None, s)],
       [Challenge("c", "t", None, None, 1000, NotCompleted, "a")],
       [], {}, [])
  }

  /** A vote by `a` against `b` one second after the challenge ended is
      refused with "Challenge is not over." as written, and admitted with the
      intended gate; a second before the end it is the other way round. */
  lemma VoteAfterEndRefused()
    ensures Validate(AsWritten, EndedChallengeDb(), 2000, Some("c"), Some("a"), Some("b")) == Some(NotOver)
    ensures SubmitVote(EndedChallengeDb(), 2000, Some("c"), Some("a"), Some("b")).out == Err(InvalidRequest)
    ensures SubmitVoteIntended(EndedChallengeDb(), 2000, Some("c"), Some("a"), Some("b")).out == Ok(())
    ensures SubmitVote(EndedChallengeDb(), 999, Some("c"), Some("a"), Some("b")).out == Ok(())
  {
    var db := EndedChallengeDb();
    assert CountEither(db.users, "a", "b") == 2 by {
      assert db.users[1..][1..] == [];
    }
    assert FindChallenge(db.challenges, "c") == Some(db.challenges[0]);
  }
}
